=== FILE: README.md ===
# UdonNet core in Dafny

UdonNet is a small networking layer for VRChat worlds written in UdonSharp
(C#). Every player owns one `NetworkedUNPlayer` from a pool that the
`UdonNetController` manages. The player's single synced string carries a
fixed-size frame, Base64-encoded. The frame holds a big-endian event id, a
flags byte, an optional target player id and a one-byte-per-character
payload. Peers that do not own the player notice when the value changes and
pass it on. Two utility classes sit beside this channel. `BufferToolkit`
reads and writes typed big-endian fields at an offset of a byte array.
`BufferedWriter` is a cursor-based writer over such an array.

This project models those four classes as pure functions over immutable
values. Byte arrays are `seq<uint8>`. C# strings are sequences of UTF-16
code units. A writer returns the updated array together with the count the
C# method returns. Object state (`NetworkedUNPlayer`'s `eventId`, `data` and
`lastData`, `BufferedWriter`'s fields, the controller's slot pool) is a
datatype that each operation maps to its successor. The host appears only
as parameters: ownership tests, the local player, the configured frame size
and the clock. Where C# would throw, the model either uses an explicit
outcome (`Option`, `Result`, `Raised`, `OutOfRange`, `NullPool`) or a
precondition that excludes the call (indexing outside an array).

Modules, one per file:

- `Wrappers`: `Option` and `Result`.
- `Numeric`: fixed-width integer types, byte truncation, two's-complement
  reinterpretation, and C#'s truncating division.
- `BigEndian`: the byte layouts of 16-, 32- and 64-bit values and their
  inverses.
- `Ascii`: the one-byte-per-character conversion and the NUL-terminated
  scan.
- `BufferToolkit`: `BufferToolkit.cs`.
- `ByteHelpers`: the byte helpers of `UdonNetController.cs`.
  `NetworkedUNPlayer.cs` repeats a subset of them verbatim, so both copies
  are modelled once.
- `NetworkedPlayer`: the frame codec, sending, and change detection of
  `NetworkedUNPlayer.cs`.
- `Controller`: the slot pool and segment count of `UdonNetController.cs`.
- `BufferedWriter`: `BufferedWriter.cs`.

Two parts of the controller are thinner than their names suggest, and the
model follows the code:

- `CalculateSegmentsCount` uses a fixed 8-byte header whatever the flags
  are. The comment on that constant lists its fields
  (`UdonNetController.cs:211`).
- The controller's `Handle` has its whole body commented out
  (`UdonNetController.cs:85-149`). Its `Encode` and `Decode` return null
  before any protocol code, and the rest of their bodies is commented out
  (`UdonNetController.cs:221-356`).

## Model

| member | source | states |
|---|---|---|
| BufferToolkit.ReadBoolean | Assets/UdonNet/Scripts/BufferToolkit.cs:17-20 | only 0xFF reads as true; writing the boolean back as 0xFF or 0x00 restores the byte exactly when it was one of those two |
| BufferToolkit.WriteBoolean | Assets/UdonNet/Scripts/BufferToolkit.cs:17-26 | writes one byte, 0xFF for true and 0x00 for false, leaves every other byte alone and returns 1; `ReadBoolean` of that byte gives the boolean back |
| BufferToolkit.ReadByte | Assets/UdonNet/Scripts/BufferToolkit.cs:28-31 | the byte that, stored back at the offset, leaves the array unchanged |
| BufferToolkit.WriteByte | Assets/UdonNet/Scripts/BufferToolkit.cs:28-37 | `ReadByte` at the offset returns the written byte; no byte other than the written one changes; returns 1 |
| BufferToolkit.ReadSByte | Assets/UdonNet/Scripts/BufferToolkit.cs:228-231 | the signed byte whose `(byte)` cast, stored back at the offset, leaves the array unchanged |
| BufferToolkit.WriteSByte | Assets/UdonNet/Scripts/BufferToolkit.cs:228-236 | the signed byte survives `(byte)` then `(sbyte)`: `ReadSByte` returns it; no byte other than the written one changes |
| BufferToolkit.ReadBytes | Assets/UdonNet/Scripts/BufferToolkit.cs:39-47 | the result has `count` bytes, byte i being `buffer[offset + i]` |
| BufferToolkit.WriteBytes | Assets/UdonNet/Scripts/BufferToolkit.cs:49-58 | returns `count`; a count of zero or less changes nothing; otherwise the `count` bytes at `offset` equal the source run and no byte outside them changes |
| BufferToolkit.WriteBytesWithin | Assets/UdonNet/Scripts/BufferToolkit.cs:49-58 | the same loop with `bytes` and `buffer` being one array: only the target run changes, and the result equals a copy from a separate array unless the source run starts before the target run and overlaps it |
| BufferToolkit.OverlappingCopySmears | Assets/UdonNet/Scripts/BufferToolkit.cs:49-58 | `[1, 2, 3, 4]` copied onto itself with offset 1, index 0 and count 3 becomes `[1, 1, 1, 1]`, not the `[1, 1, 2, 3]` a separate source gives |
| BufferToolkit.CopyBytes | Assets/UdonNet/Scripts/BufferToolkit.cs:49-58 | the byte-by-byte `while` loop produces exactly the array and count of `WriteBytes` |
| BufferToolkit.ReadWrittenBytes | Assets/UdonNet/Scripts/BufferToolkit.cs:39-58 | `ReadBytes` after `WriteBytes` with the same offset and count returns the copied run |
| BufferToolkit.ReadChar | Assets/UdonNet/Scripts/BufferToolkit.cs:60-66 | the character whose two bytes, high first, are the bytes at the offset |
| BufferToolkit.WriteChar | Assets/UdonNet/Scripts/BufferToolkit.cs:60-73 | `ReadChar` returns the written character; no byte outside the two written bytes changes; returns 2 |
| BufferToolkit.ReadUInt16 | Assets/UdonNet/Scripts/BufferToolkit.cs:122-128 | the value whose two bytes, high first, are the bytes at the offset |
| BufferToolkit.WriteUInt16 | Assets/UdonNet/Scripts/BufferToolkit.cs:122-136 | `ReadUInt16` returns the written value; no byte outside the two written bytes changes |
| BufferToolkit.ReadInt16 | Assets/UdonNet/Scripts/BufferToolkit.cs:104-112 | the signed value whose two's-complement bytes, high first, are the bytes at the offset |
| BufferToolkit.WriteInt16 | Assets/UdonNet/Scripts/BufferToolkit.cs:104-120 | `ReadInt16` returns the written value, and the bytes read as unsigned give its 16-bit residue |
| BufferToolkit.ReadThenWrite16 | Assets/UdonNet/Scripts/BufferToolkit.cs:60-136 | writing back a 16-bit value just read (char, signed or unsigned) leaves the array unchanged: the 16-bit readers are injective on bytes |
| BufferToolkit.ReadUInt32 | Assets/UdonNet/Scripts/BufferToolkit.cs:157-165 | the value whose four bytes, most significant first, are the bytes at the offset |
| BufferToolkit.WriteUInt32 | Assets/UdonNet/Scripts/BufferToolkit.cs:157-174 | `ReadUInt32` returns the written value; no byte outside the four written bytes changes; returns 4 |
| BufferToolkit.ReadInt32 | Assets/UdonNet/Scripts/BufferToolkit.cs:138-146 | the signed value whose four two's-complement bytes, most significant first, are the bytes at the offset |
| BufferToolkit.WriteInt32 | Assets/UdonNet/Scripts/BufferToolkit.cs:138-155 | `ReadInt32` returns the written value, and the bytes read as unsigned give its 32-bit residue |
| BufferToolkit.ReadThenWrite32 | Assets/UdonNet/Scripts/BufferToolkit.cs:138-174 | writing back a 32-bit value just read, signed or not, leaves the array unchanged |
| BufferToolkit.WriteDecimal | Assets/UdonNet/Scripts/BufferToolkit.cs:86-96 | the parts are written one after another: returns 4 per part, changes only those bytes, and `ReadInt32` at offset + 4k returns part k |
| BufferToolkit.ReadDecimal | Assets/UdonNet/Scripts/BufferToolkit.cs:75-84 | four 32-bit parts that `WriteDecimal` writes back over the 16 bytes without changing the array |
| BufferToolkit.WriteBackParts | Assets/UdonNet/Scripts/BufferToolkit.cs:75-96 | parts read with `ReadInt32` from consecutive 4-byte places, written back there by `WriteDecimal`, leave the array unchanged |
| BufferToolkit.DecimalRoundTrip | Assets/UdonNet/Scripts/BufferToolkit.cs:75-96 | the four parts of a decimal survive `WriteDecimal` then `ReadDecimal`, 16 bytes in all |
| BufferToolkit.ReadSingleIgnoresBytes | Assets/UdonNet/Scripts/BufferToolkit.cs:238-241 | `ReadSingle` returns -1 for every array and offset |
| BufferToolkit.WriteSingle | Assets/UdonNet/Scripts/BufferToolkit.cs:238-247 | stores the half-precision pattern as a `UInt16` (two bytes, read back by `ReadUInt16`), while `ReadSingle` of those bytes is -1 |
| BufferToolkit.ReadUInt64 | Assets/UdonNet/Scripts/BufferToolkit.cs:202-213 | the value whose eight bytes are bytes 0..2 at the offset, then a zero byte, then bytes 3..6; byte 7 is never read |
| BufferToolkit.ReadInt64 | Assets/UdonNet/Scripts/BufferToolkit.cs:176-187 | the signed value with those same eight bytes: bytes 0..2, a zero byte, bytes 3..6 |
| BufferToolkit.WriteUInt64 | Assets/UdonNet/Scripts/BufferToolkit.cs:215-226 | the eight written bytes, most significant first, have the value written; nothing else changes; returns 8 |
| BufferToolkit.WriteInt64 | Assets/UdonNet/Scripts/BufferToolkit.cs:189-200 | the eight written bytes have the value's 64-bit residue |
| BufferToolkit.ReadUInt64AfterWrite | Assets/UdonNet/Scripts/BufferToolkit.cs:202-226 | `ReadUInt64` after `WriteUInt64(u)` returns the top 24 bits of u followed by bits 8..39 of u, not u |
| BufferToolkit.UInt64RoundTripFails | Assets/UdonNet/Scripts/BufferToolkit.cs:176-226 | writing 1 with either 64-bit writer reads back 0 with the matching reader |
| BufferToolkit.ReadUInt64Corrected | Assets/UdonNet/Scripts/BufferToolkit.cs:202-213 | the value whose eight big-endian bytes are exactly the bytes at the offset |
| BufferToolkit.ReadInt64Corrected | Assets/UdonNet/Scripts/BufferToolkit.cs:176-187 | the signed value whose eight big-endian bytes are exactly the bytes at the offset |
| BufferToolkit.UInt64RoundTripCorrected | Assets/UdonNet/Scripts/BufferToolkit.cs:202-226 | every unsigned 64-bit value survives `WriteUInt64` then the corrected reader |
| BufferToolkit.Int64RoundTripCorrected | Assets/UdonNet/Scripts/BufferToolkit.cs:176-200 | every signed 64-bit value survives `WriteInt64` then the corrected reader |
| BufferToolkit.ReadStringAscii | Assets/UdonNet/Scripts/BufferToolkit.cs:249-264 | one character per byte from the offset, stopping at a NUL byte, after `count` characters (never when count is negative) or at the end of the array; the result holds no NUL |
| BufferToolkit.ReadStringAsciiIsDetermined | Assets/UdonNet/Scripts/BufferToolkit.cs:249-264 | those clauses admit exactly one string, so they describe the reader completely |
| BufferToolkit.ScanStringAscii | Assets/UdonNet/Scripts/BufferToolkit.cs:249-264 | the `for` loop with its NUL and count tests returns exactly `ReadStringAscii` |
| BufferToolkit.WriteStringAscii | Assets/UdonNet/Scripts/BufferToolkit.cs:266-276 | fails (Convert.ToByte throws) exactly when a character is above 255; otherwise returns the length and leaves the array unchanged |
| BufferToolkit.WriteStringAsciiIsLost | Assets/UdonNet/Scripts/BufferToolkit.cs:249-276 | "A" written over a NUL byte reads back as the empty string |
| BufferToolkit.WriteStringAsciiCorrected | Assets/UdonNet/Scripts/BufferToolkit.cs:266-276 | fails exactly on a character above 255; otherwise stores character k at offset + k and changes nothing else |
| BufferToolkit.StringRoundTripCorrected | Assets/UdonNet/Scripts/BufferToolkit.cs:249-276 | a string of characters 1..255 survives the corrected writer then `ReadStringAscii` with its length as count |
| Ascii.EncodeBytes | Assets/UdonNet/Scripts/UdonNetController.cs:395-405 | defined exactly when every character is at most 255; byte k equals character k |
| Ascii.DecodeUntilNul | Assets/UdonNet/Scripts/UdonNetController.cs:445-458 | the longest NUL-free prefix: its characters equal the bytes, and it ends at the end or at a NUL byte |
| Ascii.DecodeEncoded | Assets/UdonNet/Scripts/UdonNetController.cs:395-458 | a string of characters 1..255, encoded and followed by NUL padding or nothing, decodes to itself |
| ByteHelpers.UshortToBytes | Assets/UdonNet/Scripts/UdonNetController.cs:357-364 | two bytes whose big-endian value is the input |
| ByteHelpers.ShortToBytes | Assets/UdonNet/Scripts/UdonNetController.cs:366-373 | two bytes whose big-endian value, read as signed, is the input |
| ByteHelpers.Uint32ToBytes | Assets/UdonNet/Scripts/UdonNetController.cs:375-383 | four bytes whose big-endian value is the input (same as NetworkedUNPlayer.cs:230-238) |
| ByteHelpers.Int32ToBytes | Assets/UdonNet/Scripts/UdonNetController.cs:385-393 | four bytes whose big-endian value, read as signed, is the input (same as NetworkedUNPlayer.cs:240-248) |
| ByteHelpers.StringToBytes | Assets/UdonNet/Scripts/UdonNetController.cs:395-405 | one byte per character, byte k equal to character k; fails exactly when a character is above 255 (same as NetworkedUNPlayer.cs:250-260) |
| ByteHelpers.BytesToUshort | Assets/UdonNet/Scripts/UdonNetController.cs:407-413 | the value whose two bytes are the bytes at the offset |
| ByteHelpers.BytesToShort | Assets/UdonNet/Scripts/UdonNetController.cs:415-423 | the signed value whose two bytes are the bytes at the offset |
| ByteHelpers.BytesToUint32 | Assets/UdonNet/Scripts/UdonNetController.cs:425-433 | the value whose four bytes are the bytes at the offset (same as NetworkedUNPlayer.cs:262-270) |
| ByteHelpers.BytesToInt32 | Assets/UdonNet/Scripts/UdonNetController.cs:435-443 | the signed value whose four bytes are the bytes at the offset (same as NetworkedUNPlayer.cs:272-280) |
| ByteHelpers.BytesToString | Assets/UdonNet/Scripts/UdonNetController.cs:445-458 | the characters from the offset up to the first NUL byte or the end of the array, none of them NUL (same as NetworkedUNPlayer.cs:282-295) |
| ByteHelpers.Short16RoundTrip | Assets/UdonNet/Scripts/UdonNetController.cs:357-423 | every 16-bit value, signed or not, survives the two-byte encoding and decoding |
| ByteHelpers.Word32RoundTrip | Assets/UdonNet/Scripts/UdonNetController.cs:375-443 | every 32-bit value, signed or not, survives the four-byte encoding and decoding |
| ByteHelpers.StringRoundTrip | Assets/UdonNet/Scripts/UdonNetController.cs:395-458 | a string of characters 1..255 survives `StringToBytes` then `BytesToString` |
| NetworkedPlayer.Encode | Assets/UdonNet/Scripts/NetworkedUNPlayer.cs:133-188 | null without a controller; an exception when the frame cannot hold the header or a character is above 255; null when header plus payload exceed the frame; otherwise a frame of the configured size with event id, flags, the target id only when flag 0x02 is set, the payload and zero padding |
| NetworkedPlayer.Decode | Assets/UdonNet/Scripts/NetworkedUNPlayer.cs:195-224 | defined exactly when the frame holds its header; event id, flags and target id (present exactly when flag 0x02 is set) are the header bytes read back; the text is the payload up to the first NUL |
| NetworkedPlayer.DecodeEncode | Assets/UdonNet/Scripts/NetworkedUNPlayer.cs:133-224 | decoding an encoded frame returns the event id, flags, target id (when targeted) and a payload of characters 1..255 |
| NetworkedPlayer.TargetedPayloadTooLong | Assets/UdonNet/Scripts/NetworkedUNPlayer.cs:173-177 | with a 37-byte frame, a targeted 34-character payload is refused as too long |
| NetworkedPlayer.SendPacket | Assets/UdonNet/Scripts/NetworkedUNPlayer.cs:66-94 | a non-owner gets false and nothing changes; an owner always advances the event id by one (mod 2^32), and publishes the frame encoded with the old id exactly when `Encode` succeeds; an `Encode` exception propagates; `lastData` is never touched |
| NetworkedPlayer.UntargetedSend | Assets/UdonNet/Scripts/NetworkedUNPlayer.cs:66-94 | a send whose flags leave 0x02 clear publishes a frame that carries those flags and decodes without a target id |
| NetworkedPlayer.SendRawDataToPlayer | Assets/UdonNet/Scripts/NetworkedUNPlayer.cs:42-45 | a non-owner gets false and nothing changes; an owner consumes an event id and returns true exactly when `Encode` builds the frame and raises exactly when `Encode` throws (a character above 255); a built frame is published with the old event id, flags 0 and the text; the target id reaches `Encode` but is not stored, as flag 0x02 is clear; `lastData` is untouched and a send that does not return true leaves `data` alone; a published frame decodes without a target id |
| NetworkedPlayer.SendRawDataToPlayerLossless | Assets/UdonNet/Scripts/NetworkedUNPlayer.cs:47-50 | a non-owner gets false and nothing changes; an owner consumes an event id and returns true exactly when `Encode` builds the frame and raises exactly when `Encode` throws (a character above 255); a built frame is published with the old event id, flags 0x01 and the text; the target id reaches `Encode` but is not stored, as flag 0x02 is clear; `lastData` is untouched and a send that does not return true leaves `data` alone; a published frame decodes without a target id |
| NetworkedPlayer.BroadcastRawData | Assets/UdonNet/Scripts/NetworkedUNPlayer.cs:52-55 | a non-owner gets false and nothing changes; an owner consumes an event id and returns true exactly when `Encode` builds the frame and raises exactly when `Encode` throws (a character above 255); a built frame is published with the old event id, flags 0 and the text; `lastData` is untouched and a send that does not return true leaves `data` alone; a published frame decodes without a target id |
| NetworkedPlayer.BroadcastRawDataLossless | Assets/UdonNet/Scripts/NetworkedUNPlayer.cs:57-60 | a non-owner gets false and nothing changes; an owner consumes an event id and returns true exactly when `Encode` builds the frame and raises exactly when `Encode` throws (a character above 255); a built frame is published with the old event id, flags 0x01 and the text; `lastData` is untouched and a send that does not return true leaves `data` alone; a published frame decodes without a target id |
| NetworkedPlayer.FirstPacketHasEventIdZero | Assets/UdonNet/Scripts/NetworkedUNPlayer.cs:32-94 | a fresh player's first published frame decodes with event id 0, and the player moves on to 1 |
| NetworkedPlayer.TargetIsNeverSent | Assets/UdonNet/Scripts/NetworkedUNPlayer.cs:42-60 | a targeted send and a broadcast of the same text have the same effect: the target id is dropped |
| NetworkedPlayer.OnDeserialization | Assets/UdonNet/Scripts/NetworkedUNPlayer.cs:105-122 | a non-owner that sees a non-empty value, different from the last one seen, after 10 seconds records it; when a controller is connected it hands on the value's decoding, or throws when `Decode` fails, the value having been recorded first; in every other case nothing changes |
| NetworkedPlayer.RedeliveryIsIgnored | Assets/UdonNet/Scripts/NetworkedUNPlayer.cs:105-122 | the same value delivered again right after being handled is not handled again |
| NetworkedPlayer.ShortFrameIsSwallowed | Assets/UdonNet/Scripts/NetworkedUNPlayer.cs:105-122 | a new value shorter than the header makes `Decode` throw after it was recorded, so it is never handed on, even when delivered again |
| NetworkedPlayer.SentFrameIsReceived | Assets/UdonNet/Scripts/NetworkedUNPlayer.cs:52-224 | a frame an owner broadcasts is recorded by a non-owner that last saw something else, which hands on the packet with the sender's event id, flags 0, no target and the sent text |
| Controller.FirstOwnedFrom | Assets/UdonNet/Scripts/UdonNetController.cs:169-175 | the lowest slot at or after the start owned by the given player, or none when no such slot exists |
| Controller.GetNetworkedUNPlayer | Assets/UdonNet/Scripts/UdonNetController.cs:157-178 | null without a pool; slot 0 exactly when the controller's owner asks about itself (an exception on an empty pool); otherwise the lowest slot from 1 on that the player owns, or null when there is none |
| Controller.GetLocalUNPlayer | Assets/UdonNet/Scripts/UdonNetController.cs:152-178 | null without a pool; the controller's owner is given slot 0 (an exception on an empty pool); any other peer gets the lowest slot from 1 on that it owns, found exactly when it owns one |
| Controller.OnPlayerJoined | Assets/UdonNet/Scripts/UdonNetController.cs:180-202 | nothing happens exactly when this peer does not own the controller; the owner throws without a pool, and otherwise always assigns when it still owns a slot from 1 on, handing the lowest such slot to the joiner and changing no other slot; the pool is full exactly when no such slot exists, and then nothing changes |
| Controller.JoinKeepsOtherSlots | Assets/UdonNet/Scripts/UdonNetController.cs:180-202 | a join never changes slot 0 or any slot other than the one it assigns |
| Controller.JoinThenLookup | Assets/UdonNet/Scripts/UdonNetController.cs:157-202 | when the controller's owner still owns a slot from 1 on, a join assigns one to the new player, and looking that player up then finds that slot on every peer |
| Controller.ThreeSlotScenario | Assets/UdonNet/Scripts/UdonNetController.cs:180-202 | with three slots, two joins take slots 1 and 2 and a third finds the pool full |
| Controller.CalculateSegmentsCount | Assets/UdonNet/Scripts/UdonNetController.cs:209-214 | the count is the quotient truncated toward zero, for every sign of the length and of frame − 8: the remainder length − count × (frame − 8) has the sign of the length and is smaller than frame − 8 in magnitude; for a non-negative length and a frame above 8 this is count × (frame − 8) ≤ length < (count + 1) × (frame − 8) |
| Controller.SegmentsCountIgnoresFlags | Assets/UdonNet/Scripts/UdonNetController.cs:209-214 | the packet flags do not affect the count |
| Controller.SegmentsCountLosesTail | Assets/UdonNet/Scripts/UdonNetController.cs:209-214 | with the default 37-byte frame, 30 bytes give one 29-byte segment, which does not hold them |
| Controller.SegmentsCountCorrected | Assets/UdonNet/Scripts/UdonNetController.cs:209-214 | the fewest segments of frame − 8 bytes that together hold the buffer |
| BufferedWriter.BeginEmpty | Assets/UdonNet/Scripts/BufferedWriter.cs:43-56 | never returns true; a writer in use is left alone; a free one is claimed for a zeroed array of `len` bytes with offset 0 and count `len`, keeping `written`; a free one given a negative `len` throws and is left claimed with its old fields |
| BufferedWriter.BeginEmptyResultIsUninformative | Assets/UdonNet/Scripts/BufferedWriter.cs:38-56 | a free writer that was claimed and a busy writer that was refused return the same boolean |
| BufferedWriter.NegativeLengthKeepsClaim | Assets/UdonNet/Scripts/BufferedWriter.cs:43-79 | after `BeginEmpty` throws on a negative length, `Begin` fails until `End` frees the writer |
| BufferedWriter.BeginEmptyCorrected | Assets/UdonNet/Scripts/BufferedWriter.cs:38-56 | returns true exactly when the writer was free and the length not negative, throws exactly when `BeginEmpty` does, with the same resulting writer |
| BufferedWriter.Begin | Assets/UdonNet/Scripts/BufferedWriter.cs:65-79 | returns true exactly when the writer was free; then it holds the given array, offset and count, with `written` reset to 0; otherwise nothing changes |
| BufferedWriter.End | Assets/UdonNet/Scripts/BufferedWriter.cs:213-219 | the array is dropped, offset and count are -1 and the writer is free, so it is not ready; `written` is kept; the writer can be begun again |
| BufferedWriter.FreeUntilClaimed | Assets/UdonNet/Scripts/BufferedWriter.cs:33-36 | a new writer is free, `Begin` succeeds exactly on a free writer and leaves it not free, and `End` frees it |
| BufferedWriter.ReadyOnlyWithWindow | Assets/UdonNet/Scripts/BufferedWriter.cs:178-181 | a new or ended writer is not ready; after a successful `Begin` it is not ready exactly when given a null array or a -1 offset or count |
| BufferedWriter.FullWhenCursorMeetsCount | Assets/UdonNet/Scripts/BufferedWriter.cs:183-186 | a new or ended writer reports full, offset and count both being -1; a freshly begun one is full exactly when its offset equals its count |
| BufferedWriter.WriteByte | Assets/UdonNet/Scripts/BufferedWriter.cs:90-93 | stores the byte at the cursor, advances the cursor by one, and changes nothing else |
| BufferedWriter.WriteBoolean | Assets/UdonNet/Scripts/BufferedWriter.cs:85-88 | stores exactly 0xFF for true and 0x00 for false at the cursor, which `ReadBoolean` reads as the boolean, and advances the cursor by one |
| BufferedWriter.WriteChar | Assets/UdonNet/Scripts/BufferedWriter.cs:105-109 | stores the character high byte first so `ReadChar` returns it, and advances the cursor by two |
| BufferedWriter.WriteChars | Assets/UdonNet/Scripts/BufferedWriter.cs:111-117 | character k is readable at cursor + 2k; the cursor advances by twice the length; nothing outside that run changes |
| BufferedWriter.WriteBytes | Assets/UdonNet/Scripts/BufferedWriter.cs:95-103 | copies the run to the cursor position but leaves the cursor where it was; a count of zero or less changes nothing |
| BufferedWriter.WriteDecimal | Assets/UdonNet/Scripts/BufferedWriter.cs:119-126 | since `WriteInt32` is empty, writing the parts of a decimal leaves the writer unchanged; the recursion only mirrors the loop, and each step is the identity |
| BufferedWriter.TypedWritersAreNoOps | Assets/UdonNet/Scripts/BufferedWriter.cs:128-211 | the double, single, 16/32/64-bit, signed-byte and string writers, `Flush` and `Write` leave the writer unchanged |
| BufferedWriter.CharsFillWindow | Assets/UdonNet/Scripts/BufferedWriter.cs:65-186 | a window begun at offset 0 with a count of 2n bytes reports full after `WriteChars` of n characters |
| BufferedWriter.CountIsAnEndPosition | Assets/UdonNet/Scripts/BufferedWriter.cs:65-186 | begun at a positive offset with a count of 2n bytes, the writer does not report full after n characters: `IsFull` treats the count as an end position, not the byte count `Begin` documents |

## Left out

- Base64: `Convert.ToBase64String` and `FromBase64String` form a bijection between frames and channel text. The channel value is modelled as the frame itself, so a malformed Base64 string (`FormatException`) is not modelled.
- Logging: `Debug.Log` and `Debug.LogWarning` have no effect on state.
- Host services become parameters: `Networking.IsOwner`, `Networking.LocalPlayer`, `Time.timeSinceLevelLoad`, the connected controller and its `networkFrameSize`.
- `Networking.SetOwner` is modelled as taking effect at once. Transfer latency is a host concern.
- `UdonNetController.Handle`: the body is commented out, so handing a frame on is the model's last step. Its `Encode` and `Decode` return null with their bodies commented out, and the send queue, acknowledgement table and segment codec exist only in those comments.
- `UdonNetController.Start` builds the pool from the transform's children. The pool here is an input: one owner id per slot.
- The controller's tuning fields and `Flag*` constants are not read by any modelled operation.
- `NetworkedUNPlayer.Start` and `Ping` are empty.
- `BufferToolkit.WriteDouble` is commented out.
- `ReadDecimal` builds the value with `new decimal(bits)`. The model stops at the four parts, because decimal arithmetic and the constructor's exception on invalid parts are .NET library behaviour. `WriteDecimal` receives `decimal.GetBits` as its parts for the same reason.
- `WriteSingle` calls `Mathf.FloatToHalf`, a host function. It arrives as its 16-bit result, and floating point is not modelled.
- `BufferedWriter`: the `GetOffset`, `GetCount` and `GetByteArray` accessors are field reads of the datatype.
- Null arrays passed to `BufferToolkit` or `BufferedWriter` methods would throw `NullReferenceException`; sequences here are never null. The same goes for a null `chars` in `WriteChars` and null pool entries.
- Out-of-range array indexing throws in C#, and the preconditions exclude those calls. This covers:
  - the fixed-width readers and writers;
  - `ReadStringAscii` and `BytesToString` with a negative offset;
  - `ReadBytes` with a negative count, where `new byte[n]` throws.
- BufferToolkit.WriteBytes: `bytes` and `buffer` are taken to be distinct arrays. The same array passed as both is modelled separately by `WriteBytesWithin`.
- BufferedWriter.WriteBytes: the source array is taken to be distinct from the writer's own array; a call passing the writer's array as `src` is not modelled.
- BufferToolkit.CopyBytes: like `WriteBytes`, it copies between distinct arrays.
- The protocol version constants and the `PacketEnquiry`, `PacketAck` and `PacketNegAck` flag values of `NetworkedUNPlayer.cs` are not read by any modelled operation.
- Controller.CalculateSegmentsCount: weaker than the source in three ways.
  - The quotient is exact. The source passes it through a 32-bit float, which rounds quotients above 2^24.
  - A frame size of 8 (division by zero) is excluded by the precondition.
  - The 32-bit overflow of `networkFrameSize - 8` is not modelled.

## Findings

| source | as written | input that shows it | evidently intended | confidence | as-written member | corrected member |
|---|---|---|---|---|---|---|
| Assets/UdonNet/Scripts/BufferToolkit.cs:202-213 | `ReadUInt64` shifts bytes 3, 4, 5 and 6 by 24, 16, 8 and 0 instead of 32, 24, 16 and 8, and never reads byte 7 | `WriteUInt64(buffer, 0, 1)` then `ReadUInt64(buffer, 0)` returns 0 | the eight bytes read most significant first, the inverse of `WriteUInt64` | not executed | BufferToolkit.ReadUInt64AfterWrite | BufferToolkit.ReadUInt64Corrected |
| Assets/UdonNet/Scripts/BufferToolkit.cs:176-187 | `ReadInt64` has the same shifts as `ReadUInt64` | `WriteInt64(buffer, 0, 1)` then `ReadInt64(buffer, 0)` returns 0 | the inverse of `WriteInt64` | not executed | BufferToolkit.UInt64RoundTripFails | BufferToolkit.ReadInt64Corrected |
| Assets/UdonNet/Scripts/BufferToolkit.cs:266-276 | `WriteStringAscii` converts the characters into a local array and returns their number, but never copies them into `buffer` | "A" written at an offset holding 0, then `ReadStringAscii(buffer, offset, 1)` returns "" | one byte per character stored at `offset` | not executed | BufferToolkit.WriteStringAsciiIsLost | BufferToolkit.WriteStringAsciiCorrected |
| Assets/UdonNet/Scripts/UdonNetController.cs:209-214 | `Mathf.Ceil(bufferLen / availableSize)` divides two ints before rounding, so it rounds down | frame size 37 and 30 bytes give 1 segment of 29 bytes | the ceiling of the quotient | not executed | Controller.SegmentsCountLosesTail | Controller.SegmentsCountCorrected |
| Assets/UdonNet/Scripts/BufferedWriter.cs:43-56 | `BeginEmpty` claims a free writer and still returns false | a free writer and `len = 4`: the writer becomes busy and the call returns false, as for a busy writer | true when the writer was claimed, as its documentation says | not executed | BufferedWriter.BeginEmptyResultIsUninformative | BufferedWriter.BeginEmptyCorrected |

=== FILE: ascii.dfy ===
/**
 * The one-byte-per-character text encoding used for payloads:
 * `Convert.ToByte(char)` for every character on the way out (which throws
 * for a character above 255), and `Convert.ToChar(byte)` for every byte up
 * to the first NUL on the way in.
 */
module Ascii {
  import opened Wrappers
  import opened Numeric

  /** True when every character has a one-byte encoding (`Convert.ToByte` does not throw). */
  predicate IsByteString(s: CsString)
  {
    forall k :: 0 <= k < |s| ==> s[k] < 0x100
  }

  /** True when every character is a one-byte, non-NUL character (1..255). */
  predicate IsNulFreeByteString(s: CsString)
  {
    forall k :: 0 <= k < |s| ==> 0 < s[k] < 0x100
  }

  /**
   * The bytes of `s`, one per character, or `None` where `Convert.ToByte`
   * would throw because some character is above 255.
   */
  function EncodeBytes(s: CsString): (r: Option<seq<uint8>>)
    ensures r.Some? <==> IsByteString(s)
    ensures r.Some? ==> |r.value| == |s| && forall k :: 0 <= k < |s| ==> r.value[k] == s[k]
  {
    if |s| == 0 then Some([])
    else if s[0] >= 0x100 then None
    else match EncodeBytes(s[1..])
      case None => None
      case Some(rest) => Some([s[0] as uint8] + rest)
  }

  /**
   * The characters of `bs` up to (not including) the first NUL byte, or all
   * of them when there is none.
   */
  function DecodeUntilNul(bs: seq<uint8>): (r: CsString)
    ensures |r| <= |bs|
    ensures forall k :: 0 <= k < |r| ==> r[k] == bs[k] && r[k] != 0
    ensures |r| == |bs| || bs[|r|] == 0
  {
    if |bs| == 0 || bs[0] == 0 then []
    else [bs[0] as CsChar] + DecodeUntilNul(bs[1..])
  }

  /**
   * Decoding the bytes of a NUL-free string followed by nothing or by a NUL
   * gives the string back.
   */
  lemma {:induction false} DecodeEncoded(s: CsString, tail: seq<uint8>)
    requires IsNulFreeByteString(s)
    requires tail == [] || tail[0] == 0
    ensures EncodeBytes(s).Some?
    ensures DecodeUntilNul(EncodeBytes(s).value + tail) == s
  {
    if |s| > 0 {
      DecodeEncoded(s[1..], tail);
      var bs := EncodeBytes(s).value + tail;
      assert bs[0] == s[0] && bs[0] != 0;
      assert bs[1..] == EncodeBytes(s[1..]).value + tail;
    }
  }
}

=== FILE: big_endian.dfy ===
/**
 * Big-endian byte layouts shared by every codec of the system: the byte
 * lists written by `(byte)(x >> 8k)` sequences and the values rebuilt by
 * `(b0 << 8(n-1)) | ... | bn`. The shifted bytes never overlap, so the
 * bitwise or of the readers is their sum.
 */
module BigEndian {
  import opened Numeric

  /** The value of two bytes, most significant first. */
  function Word16(hi: uint8, lo: uint8): uint16
  {
    hi as int * 0x100 + lo
  }

  /** The value of four bytes, most significant first. */
  function Word32(b: seq<uint8>): uint32
    requires |b| == 4
  {
    b[0] as int * 0x100_0000 + b[1] as int * 0x1_0000 + b[2] as int * 0x100 + b[3]
  }

  /** The value of eight bytes, most significant first. */
  function Word64(b: seq<uint8>): uint64
    requires |b| == 8
  {
    Word32(b[..4]) as int * 0x1_0000_0000 + Word32(b[4..])
  }

  /** `(byte)(x >> 8), (byte)x`: the low 16 bits of `x`, high byte first. */
  function Bytes16(x: int): (r: seq<uint8>)
    ensures |r| == 2 && Word16(r[0], r[1]) == x % 0x1_0000
  {
    Digit8(x);
    [Low8(x / 0x100), Low8(x)]
  }

  /** `(byte)(x >> 24) ... (byte)x`: the low 32 bits of `x`, most significant byte first. */
  function Bytes32(x: int): (r: seq<uint8>)
    ensures |r| == 4 && Word32(r) == x % 0x1_0000_0000
  {
    Digit24(x);
    Digit16(x);
    Digit8(x);
    [Low8(x / 0x100_0000), Low8(x / 0x1_0000), Low8(x / 0x100), Low8(x)]
  }

  /** `(byte)(x >> 56) ... (byte)x`: the low 64 bits of `x`, most significant byte first. */
  function Bytes64(x: int): (r: seq<uint8>)
    ensures |r| == 8 && Word64(r) == x % 0x1_0000_0000_0000_0000
  {
    Digit56(x);
    Digit48(x);
    Digit40(x);
    Digit32(x);
    Digit24(x);
    Digit16(x);
    Digit8(x);
    [Low8(x / 0x100_0000_0000_0000), Low8(x / 0x1_0000_0000_0000), Low8(x / 0x100_0000_0000),
     Low8(x / 0x1_0000_0000), Low8(x / 0x100_0000), Low8(x / 0x1_0000), Low8(x / 0x100), Low8(x)]
  }

  /** Two bytes are determined by their value: `Bytes16` inverts `Word16`. */
  lemma Word16Bytes(hi: uint8, lo: uint8)
    ensures Bytes16(Word16(hi, lo)) == [hi, lo]
  {
    var w := Word16(hi, lo);
    assert w / 0x100 == hi;
  }

  /** Four bytes are determined by their value: `Bytes32` inverts `Word32`. */
  lemma Word32Bytes(b: seq<uint8>)
    requires |b| == 4
    ensures Bytes32(Word32(b)) == b
  {
    var w := Word32(b);
    var top2 := b[0] as int * 0x100 + b[1];
    var top3 := top2 * 0x100 + b[2];
    assert w == top3 * 0x100 + b[3];
    assert w / 0x100_0000 == b[0];
    assert w / 0x1_0000 == top2;
    assert w / 0x100 == top3;
    MultipleOf256(b[0] as int, b[1] as int);
    MultipleOf256(top2, b[2] as int);
    MultipleOf256(top3, b[3] as int);
  }

  /** Eight bytes are determined by their value: `Bytes64` inverts `Word64`. */
  lemma Word64Bytes(b: seq<uint8>)
    requires |b| == 8
    ensures Bytes64(Word64(b)) == b
  {
    HighLowSplit(Word32(b[..4]), Word32(b[4..]));
    Word32Bytes(b[..4]);
    Word32Bytes(b[4..]);
    assert b == b[..4] + b[4..];
  }

  /** The bytes of a 64-bit value are the bytes of its high word followed by those of its low word. */
  lemma HighLowSplit(hi: uint32, lo: uint32)
    ensures Bytes64(hi as int * 0x1_0000_0000 + lo) == Bytes32(hi) + Bytes32(lo)
  {
    var w := hi as int * 0x1_0000_0000 + lo;
    HighShift(hi, lo, 0x100_0000);
    HighShift(hi, lo, 0x1_0000);
    HighShift(hi, lo, 0x100);
    HighShift(hi, lo, 1);
    LowShift(hi, lo, 0x100_0000);
    LowShift(hi, lo, 0x1_0000);
    LowShift(hi, lo, 0x100);
    LowShift(hi, lo, 1);
  }

  /** Shifting a 64-bit value right by 32 + k bits shifts its high word by k bits. */
  lemma HighShift(hi: uint32, lo: uint32, m: int)
    requires m == 1 || m == 0x100 || m == 0x1_0000 || m == 0x100_0000
    ensures (hi as int * 0x1_0000_0000 + lo) / (0x1_0000_0000 * m) == hi / m
  {
    var w := hi as int * 0x1_0000_0000 + lo;
    var q := hi / m;
    var r := hi % m;
    assert w == q * (0x1_0000_0000 * m) + (r * 0x1_0000_0000 + lo);
    assert 0 <= r * 0x1_0000_0000 + lo < 0x1_0000_0000 * m;
  }

  /** The byte of a 64-bit value at a position below 32 is the byte of its low word there. */
  lemma LowShift(hi: uint32, lo: uint32, m: int)
    requires m == 1 || m == 0x100 || m == 0x1_0000 || m == 0x100_0000
    ensures Low8((hi as int * 0x1_0000_0000 + lo) / m) == Low8(lo / m)
  {
    if m == 1 {
      assert Low8(hi as int * 0x1_0000_0000 + lo) == Low8(lo);
    } else if m == 0x100 {
      LowShift8(hi, lo);
    } else if m == 0x1_0000 {
      LowShift16(hi, lo);
    } else {
      LowShift24(hi, lo);
    }
  }

  lemma LowShift8(hi: uint32, lo: uint32)
    ensures Low8((hi as int * 0x1_0000_0000 + lo) / 0x100) == Low8(lo / 0x100)
  {
    var q := lo / 0x100;
    var high := hi as int * 0x100_0000;
    assert hi as int * 0x1_0000_0000 + lo == (high + q) * 0x100 + lo % 0x100;
    assert (hi as int * 0x1_0000_0000 + lo) / 0x100 == high + q;
    MultipleOf256(hi as int * (0x100_0000 / 0x100), q);
  }

  lemma LowShift16(hi: uint32, lo: uint32)
    ensures Low8((hi as int * 0x1_0000_0000 + lo) / 0x1_0000) == Low8(lo / 0x1_0000)
  {
    var q := lo / 0x1_0000;
    var high := hi as int * 0x1_0000;
    assert hi as int * 0x1_0000_0000 + lo == (high + q) * 0x1_0000 + lo % 0x1_0000;
    assert (hi as int * 0x1_0000_0000 + lo) / 0x1_0000 == high + q;
    MultipleOf256(hi as int * (0x1_0000 / 0x100), q);
  }

  lemma LowShift24(hi: uint32, lo: uint32)
    ensures Low8((hi as int * 0x1_0000_0000 + lo) / 0x100_0000) == Low8(lo / 0x100_0000)
  {
    var q := lo / 0x100_0000;
    var high := hi as int * 0x100;
    assert hi as int * 0x1_0000_0000 + lo == (high + q) * 0x100_0000 + lo % 0x100_0000;
    assert (hi as int * 0x1_0000_0000 + lo) / 0x100_0000 == high + q;
    MultipleOf256(hi as int * (0x100 / 0x100), q);
  }

  /** Adding a multiple of 256 leaves the low byte unchanged. */
  lemma MultipleOf256(k: int, q: int)
    ensures Low8(k * 0x100 + q) == Low8(q)
  {
  }

  // One base-256 digit split off a remainder, one lemma per byte position
  // (each is linear arithmetic on its own; together they overwhelm the solver).

  lemma Digit56(x: int)
    ensures x % 0x1_0000_0000_0000_0000 == x % 0x100_0000_0000_0000 + Low8(x / 0x100_0000_0000_0000) * 0x100_0000_0000_0000
  {}

  lemma Digit48(x: int)
    ensures x % 0x100_0000_0000_0000 == x % 0x1_0000_0000_0000 + Low8(x / 0x1_0000_0000_0000) * 0x1_0000_0000_0000
  {}

  lemma Digit40(x: int)
    ensures x % 0x1_0000_0000_0000 == x % 0x100_0000_0000 + Low8(x / 0x100_0000_0000) * 0x100_0000_0000
  {}

  lemma Digit32(x: int)
    ensures x % 0x100_0000_0000 == x % 0x1_0000_0000 + Low8(x / 0x1_0000_0000) * 0x1_0000_0000
  {}

  lemma Digit24(x: int)
    ensures x % 0x1_0000_0000 == x % 0x100_0000 + Low8(x / 0x100_0000) * 0x100_0000
  {}

  lemma Digit16(x: int)
    ensures x % 0x100_0000 == x % 0x1_0000 + Low8(x / 0x1_0000) * 0x1_0000
  {}

  lemma Digit8(x: int)
    ensures x % 0x1_0000 == x % 0x100 + Low8(x / 0x100) * 0x100
  {}
}

=== FILE: buffer_toolkit.dfy ===
/**
 * The `BufferToolkit` field codec: readers and writers of booleans, bytes,
 * characters, 16/32/64-bit integers, decimal parts, byte runs and one-byte
 * strings at an offset of a byte array, big-endian. A C# writer mutates the
 * array and returns the number of bytes it wrote; here it returns the updated
 * buffer together with that number.
 *
 * Indexing outside the array throws in C#; those calls are excluded by the
 * preconditions.
 */
module BufferToolkit {
  import opened Wrappers
  import opened Numeric
  import opened BigEndian
  import opened Ascii
  import ByteHelpers

  /** The buffer after a write and the count the C# writer returns. */
  datatype Written = Written(buffer: seq<uint8>, count: int)

  /** `buffer[offset .. offset + n)` lies inside the buffer. */
  predicate InRange(buffer: seq<uint8>, offset: int, n: nat)
  {
    0 <= offset && offset + n <= |buffer|
  }

  /** `after` differs from `before` at most inside `[lo, hi)`. */
  predicate ChangedOnly(before: seq<uint8>, after: seq<uint8>, lo: int, hi: int)
  {
    |after| == |before| &&
    forall i :: 0 <= i < |before| && !(lo <= i < hi) ==> after[i] == before[i]
  }

  /** Stores `bs` at `offset`, leaving every other byte alone. */
  function Put(buffer: seq<uint8>, offset: int, bs: seq<uint8>): (r: seq<uint8>)
    requires InRange(buffer, offset, |bs|)
    ensures ChangedOnly(buffer, r, offset, offset + |bs|)
    ensures r[offset..offset + |bs|] == bs
  {
    buffer[..offset] + bs + buffer[offset + |bs|..]
  }

  // ---------------------------------------------------------------- booleans

  /**
   * `ReadBoolean`: only 0xFF reads as true. Writing the boolean back restores
   * the byte exactly when it was one `WriteBoolean` produces.
   */
  function ReadBoolean(buffer: seq<uint8>, offset: int): (r: bool)
    requires InRange(buffer, offset, 1)
    ensures Put(buffer, offset, [if r then 0xFF else 0x00]) == buffer <==> buffer[offset] in {0x00, 0xFF}
    ensures buffer[offset] != 0xFF ==> !r
  {
    assert Put(buffer, offset, [buffer[offset]]) == buffer;
    buffer[offset] == 0xFF
  }

  function WriteBoolean(buffer: seq<uint8>, offset: int, b: bool): (r: Written)
    requires InRange(buffer, offset, 1)
    ensures r.count == 1 && ChangedOnly(buffer, r.buffer, offset, offset + 1)
    ensures r.buffer[offset] == (if b then 0xFF else 0x00)
    ensures ReadBoolean(r.buffer, offset) == b
  {
    Written(Put(buffer, offset, [if b then 0xFF else 0x00]), 1)
  }

  // ------------------------------------------------------------------- bytes

  /** `ReadByte`: the byte that, written back, leaves the array unchanged. */
  function ReadByte(buffer: seq<uint8>, offset: int): (r: uint8)
    requires InRange(buffer, offset, 1)
    ensures Put(buffer, offset, [r]) == buffer
  {
    assert Put(buffer, offset, [buffer[offset]]) == buffer;
    buffer[offset]
  }

  function WriteByte(buffer: seq<uint8>, offset: int, b: uint8): (r: Written)
    requires InRange(buffer, offset, 1)
    ensures r.count == 1 && ChangedOnly(buffer, r.buffer, offset, offset + 1)
    ensures ReadByte(r.buffer, offset) == b
  {
    Written(Put(buffer, offset, [b]), 1)
  }

  /** `ReadSByte`: the signed byte whose two's-complement pattern is the stored byte. */
  function ReadSByte(buffer: seq<uint8>, offset: int): (r: int8)
    requires InRange(buffer, offset, 1)
    ensures Put(buffer, offset, [Low8(r)]) == buffer
  {
    Signed8(ReadByte(buffer, offset))
  }

  function WriteSByte(buffer: seq<uint8>, offset: int, s: int8): (r: Written)
    requires InRange(buffer, offset, 1)
    ensures r.count == 1 && ChangedOnly(buffer, r.buffer, offset, offset + 1)
    ensures ReadSByte(r.buffer, offset) == s
  {
    WriteByte(buffer, offset, Low8(s))
  }

  /** A fresh array of `count` bytes copied from `buffer[offset..]`. */
  function ReadBytes(buffer: seq<uint8>, offset: int, count: int): (r: seq<uint8>)
    requires 0 <= count
    requires count == 0 || InRange(buffer, offset, count)
    ensures |r| == count
    ensures forall i :: 0 <= i < count ==> r[i] == buffer[offset + i]
  {
    if count == 0 then [] else buffer[offset..offset + count]
  }

  /**
   * Copies `bytes[index .. index + count)` to `buffer[offset ..]` and returns
   * `count`; a count of zero or less copies nothing.
   */
  function WriteBytes(buffer: seq<uint8>, offset: int, bytes: seq<uint8>, index: int, count: int): (r: Written)
    requires count <= 0 || (InRange(buffer, offset, count) && InRange(bytes, index, count))
    ensures r.count == count
    ensures count <= 0 ==> r.buffer == buffer
    ensures ChangedOnly(buffer, r.buffer, offset, offset + count)
    ensures 0 < count ==> r.buffer[offset..offset + count] == bytes[index..index + count]
  {
    if count <= 0 then Written(buffer, count)
    else Written(Put(buffer, offset, bytes[index..index + count]), count)
  }

  /** The `while` loop of `WriteBytes`, one byte per step; it computes the function above. */
  method CopyBytes(buffer: seq<uint8>, offset: int, bytes: seq<uint8>, index: int, count: int) returns (r: Written)
    requires count <= 0 || (InRange(buffer, offset, count) && InRange(bytes, index, count))
    ensures r == WriteBytes(buffer, offset, bytes, index, count)
  {
    var out := buffer;
    var n := 0;
    while n < count
      invariant 0 <= n && (n <= count || n == 0)
      invariant |out| == |buffer|
      invariant forall i :: 0 <= i < |out| ==>
        out[i] == (if offset <= i < offset + n then bytes[index + (i - offset)] else buffer[i])
    {
      out := out[offset + n := bytes[index + n]];
      n := n + 1;
    }
    r := Written(out, count);
    if 0 < count {
      var expected := WriteBytes(buffer, offset, bytes, index, count).buffer;
      forall i | 0 <= i < |out|
        ensures out[i] == expected[i]
      {
        if offset <= i < offset + count {
          assert expected[i] == expected[offset..offset + count][i - offset];
        }
      }
    }
  }

  /** Reading back what `WriteBytes` copied gives the copied run. */
  lemma ReadWrittenBytes(buffer: seq<uint8>, offset: int, bytes: seq<uint8>, index: int, count: int)
    requires 0 <= count
    requires count == 0 || (InRange(buffer, offset, count) && InRange(bytes, index, count))
    ensures count == 0 || InRange(bytes, index, count)
    ensures ReadBytes(WriteBytes(buffer, offset, bytes, index, count).buffer, offset, count)
            == (if count == 0 then [] else bytes[index..index + count])
  {
  }

  /**
   * The loop of `WriteBytes` when `bytes` is `buffer` itself, after `n`
   * steps: step `j` stores at `offset + j` the byte found at `index + j` in
   * the array as earlier steps left it.
   */
  function CopyWithin(buffer: seq<uint8>, offset: int, index: int, n: nat): (r: seq<uint8>)
    requires InRange(buffer, offset, n) && InRange(buffer, index, n)
    decreases n
    ensures ChangedOnly(buffer, r, offset, offset + n)
  {
    if n == 0 then buffer
    else
      var b := CopyWithin(buffer, offset, index, n - 1);
      b[offset + n - 1 := b[index + n - 1]]
  }

  /**
   * When the source run does not start before the target run, or ends
   * before it starts, no step reads a byte an earlier step wrote: the copy
   * moves the original bytes.
   */
  lemma {:induction false} CopyWithinMovesOriginal(buffer: seq<uint8>, offset: int, index: int, n: nat)
    requires InRange(buffer, offset, n) && InRange(buffer, index, n)
    requires offset <= index || index + n <= offset
    decreases n
    ensures forall i :: offset <= i < offset + n ==> CopyWithin(buffer, offset, index, n)[i] == buffer[index + (i - offset)]
  {
    if n > 0 {
      CopyWithinMovesOriginal(buffer, offset, index, n - 1);
      var b := CopyWithin(buffer, offset, index, n - 1);
      assert b[index + n - 1] == buffer[index + n - 1];
    }
  }

  /**
   * `WriteBytes(buffer, offset, buffer, index, count)`: a copy inside one
   * array. It agrees with copying from a separate array unless the source
   * run starts before the target run and overlaps it.
   */
  function WriteBytesWithin(buffer: seq<uint8>, offset: int, index: int, count: int): (r: Written)
    requires count <= 0 || (InRange(buffer, offset, count) && InRange(buffer, index, count))
    ensures r.count == count
    ensures ChangedOnly(buffer, r.buffer, offset, offset + count)
    ensures offset <= index || index + count <= offset ==> r == WriteBytes(buffer, offset, buffer, index, count)
  {
    if count <= 0 then Written(buffer, count)
    else
      var moved := CopyWithin(buffer, offset, index, count);
      if offset <= index || index + count <= offset then
        CopyWithinMovesOriginal(buffer, offset, index, count);
        var expected := WriteBytes(buffer, offset, buffer, index, count).buffer;
        assert forall i :: offset <= i < offset + count ==> expected[i] == expected[offset..offset + count][i - offset];
        assert moved == expected;
        Written(moved, count)
      else
        Written(moved, count)
  }

  /**
   * An overlapping copy one place to the right repeats the first byte:
   * `[1, 2, 3, 4]` with offset 1, index 0 and count 3 becomes `[1, 1, 1, 1]`,
   * where a copy from a separate array holding the same bytes gives `[1, 1, 2, 3]`.
   */
  lemma OverlappingCopySmears()
    ensures WriteBytesWithin([1, 2, 3, 4], 1, 0, 3).buffer == [1, 1, 1, 1]
    ensures WriteBytes([1, 2, 3, 4], 1, [1, 2, 3, 4], 0, 3).buffer == [1, 1, 2, 3]
  {
    var s: seq<uint8> := [1, 2, 3, 4];
    assert CopyWithin(s, 1, 0, 1) == [1, 1, 3, 4];
    assert CopyWithin(s, 1, 0, 2) == [1, 1, 1, 4];
    assert Put(s, 1, s[0..3]) == [1, 1, 2, 3];
  }

  // -------------------------------------------------------- 16-bit integers

  /** `ReadChar`: the code unit whose two bytes, high first, are stored at `offset`. */
  function ReadChar(buffer: seq<uint8>, offset: int): (r: CsChar)
    requires InRange(buffer, offset, 2)
    ensures Bytes16(r) == buffer[offset..offset + 2]
  {
    Word16Bytes(buffer[offset], buffer[offset + 1]);
    Word16(buffer[offset], buffer[offset + 1])
  }

  function WriteChar(buffer: seq<uint8>, offset: int, c: CsChar): (r: Written)
    requires InRange(buffer, offset, 2)
    ensures r.count == 2 && ChangedOnly(buffer, r.buffer, offset, offset + 2)
    ensures ReadChar(r.buffer, offset) == c
  {
    var b := Put(buffer, offset, Bytes16(c));
    assert b[offset] == Bytes16(c)[0] && b[offset + 1] == Bytes16(c)[1];
    Written(b, 2)
  }

  /**
   * `ReadUInt16`: the same two bytes `ReadChar` combines, as an unsigned
   * number; the value whose two bytes, high first, are stored at `offset`.
   */
  function ReadUInt16(buffer: seq<uint8>, offset: int): (r: uint16)
    requires InRange(buffer, offset, 2)
    ensures Bytes16(r) == buffer[offset..offset + 2]
  {
    ReadChar(buffer, offset)
  }

  function WriteUInt16(buffer: seq<uint8>, offset: int, u: uint16): (r: Written)
    requires InRange(buffer, offset, 2)
    ensures r.count == 2 && ChangedOnly(buffer, r.buffer, offset, offset + 2)
    ensures ReadUInt16(r.buffer, offset) == u
  {
    var b := Put(buffer, offset, Bytes16(u));
    assert b[offset] == Bytes16(u)[0] && b[offset + 1] == Bytes16(u)[1];
    assert ReadChar(b, offset) == u;
    Written(b, 2)
  }

  /** `(short)(b0 << 8) | b1`: the two bytes as a two's-complement 16-bit value. */
  function ReadInt16(buffer: seq<uint8>, offset: int): (r: int16)
    requires InRange(buffer, offset, 2)
    ensures Bytes16(r) == buffer[offset..offset + 2]
  {
    ByteHelpers.BytesToShort(buffer, offset)
  }

  function WriteInt16(buffer: seq<uint8>, offset: int, s: int16): (r: Written)
    requires InRange(buffer, offset, 2)
    ensures r.count == 2 && ChangedOnly(buffer, r.buffer, offset, offset + 2)
    ensures ReadUInt16(r.buffer, offset) == s % 0x1_0000
    ensures ReadInt16(r.buffer, offset) == s
  {
    var b := Put(buffer, offset, Bytes16(s));
    assert b[offset] == Bytes16(s)[0] && b[offset + 1] == Bytes16(s)[1];
    assert ReadChar(b, offset) == s % 0x1_0000;
    SignedOfResidue16(s);
    Written(b, 2)
  }

  /** Writing back a 16-bit value just read, signed or not, leaves the array as it was. */
  lemma ReadThenWrite16(buffer: seq<uint8>, offset: int)
    requires InRange(buffer, offset, 2)
    ensures WriteChar(buffer, offset, ReadChar(buffer, offset)).buffer == buffer
    ensures WriteUInt16(buffer, offset, ReadUInt16(buffer, offset)).buffer == buffer
    ensures WriteInt16(buffer, offset, ReadInt16(buffer, offset)).buffer == buffer
  {
    Word16Bytes(buffer[offset], buffer[offset + 1]);
    assert ByteHelpers.ShortToBytes(ByteHelpers.BytesToShort(buffer, offset)) == buffer[offset..offset + 2];
    assert buffer[..offset] + buffer[offset..offset + 2] + buffer[offset + 2..] == buffer;
  }

  // -------------------------------------------------------- 32-bit integers

  /** `ReadUInt32`: the value whose four bytes, most significant first, are stored at `offset`. */
  function ReadUInt32(buffer: seq<uint8>, offset: int): (r: uint32)
    requires InRange(buffer, offset, 4)
    ensures Bytes32(r) == buffer[offset..offset + 4]
  {
    ByteHelpers.BytesToUint32(buffer, offset)
  }

  function WriteUInt32(buffer: seq<uint8>, offset: int, u: uint32): (r: Written)
    requires InRange(buffer, offset, 4)
    ensures r.count == 4 && ChangedOnly(buffer, r.buffer, offset, offset + 4)
    ensures ReadUInt32(r.buffer, offset) == u
  {
    var b := Put(buffer, offset, Bytes32(u));
    assert b[offset..offset + 4] == Bytes32(u);
    Written(b, 4)
  }

  /** `(b0 << 24) | (b1 << 16) | (b2 << 8) | b3` evaluated in a 32-bit `int`. */
  function ReadInt32(buffer: seq<uint8>, offset: int): (r: int32)
    requires InRange(buffer, offset, 4)
    ensures Bytes32(r) == buffer[offset..offset + 4]
  {
    ByteHelpers.BytesToInt32(buffer, offset)
  }

  function WriteInt32(buffer: seq<uint8>, offset: int, i: int32): (r: Written)
    requires InRange(buffer, offset, 4)
    ensures r.count == 4 && ChangedOnly(buffer, r.buffer, offset, offset + 4)
    ensures ReadUInt32(r.buffer, offset) == i % 0x1_0000_0000
    ensures ReadInt32(r.buffer, offset) == i
  {
    var b := Put(buffer, offset, Bytes32(i));
    assert b[offset..offset + 4] == Bytes32(i);
    SignedOfResidue32(i);
    Written(b, 4)
  }

  /** Writing back a 32-bit value just read, signed or not, leaves the array as it was. */
  lemma ReadThenWrite32(buffer: seq<uint8>, offset: int)
    requires InRange(buffer, offset, 4)
    ensures WriteUInt32(buffer, offset, ReadUInt32(buffer, offset)).buffer == buffer
    ensures WriteInt32(buffer, offset, ReadInt32(buffer, offset)).buffer == buffer
  {
    Word32Bytes(buffer[offset..offset + 4]);
    assert ByteHelpers.Int32ToBytes(ByteHelpers.BytesToInt32(buffer, offset)) == buffer[offset..offset + 4];
    assert buffer[..offset] + buffer[offset..offset + 4] + buffer[offset + 4..] == buffer;
  }

  // ---------------------------------------------------------------- decimals

  /**
   * `WriteDecimal`: the 32-bit parts of `decimal.GetBits` (four of them for
   * any decimal), each written with `WriteInt32` one after another; returns
   * the number of bytes written.
   */
  function WriteDecimal(buffer: seq<uint8>, offset: int, bits: seq<int32>): (r: Written)
    requires InRange(buffer, offset, 4 * |bits|)
    decreases |bits|
    ensures r.count == 4 * |bits| && ChangedOnly(buffer, r.buffer, offset, offset + 4 * |bits|)
    ensures forall k :: 0 <= k < |bits| ==> ReadInt32(r.buffer, offset + 4 * k) == bits[k]
  {
    if |bits| == 0 then Written(buffer, 0)
    else
      var first := WriteInt32(buffer, offset, bits[0]);
      var rest := WriteDecimal(first.buffer, offset + 4, bits[1..]);
      assert rest.buffer[offset..offset + 4] == first.buffer[offset..offset + 4];
      Written(rest.buffer, 4 + rest.count)
  }

  /**
   * `ReadDecimal`: four consecutive `ReadInt32` values, the parts
   * `new decimal(bits)` is built from; writing them back with `WriteDecimal`
   * leaves the array as it was.
   */
  function ReadDecimal(buffer: seq<uint8>, offset: int): (r: seq<int32>)
    requires InRange(buffer, offset, 16)
    ensures |r| == 4 && WriteDecimal(buffer, offset, r).buffer == buffer
  {
    var r := [ReadInt32(buffer, offset), ReadInt32(buffer, offset + 4), ReadInt32(buffer, offset + 8), ReadInt32(buffer, offset + 12)];
    WriteBackParts(buffer, offset, r);
    r
  }

  /** Writing back 32-bit parts that were read from the same places changes nothing. */
  lemma {:induction false} WriteBackParts(buffer: seq<uint8>, offset: int, bits: seq<int32>)
    requires InRange(buffer, offset, 4 * |bits|)
    requires forall k :: 0 <= k < |bits| ==> bits[k] == ReadInt32(buffer, offset + 4 * k)
    ensures WriteDecimal(buffer, offset, bits).buffer == buffer
    decreases |bits|
  {
    if |bits| > 0 {
      ReadThenWrite32(buffer, offset);
      var first := WriteInt32(buffer, offset, bits[0]);
      assert first.buffer == buffer;
      var rest := bits[1..];
      forall k | 0 <= k < |rest|
        ensures rest[k] == ReadInt32(buffer, offset + 4 + 4 * k)
      {
        assert rest[k] == bits[k + 1];
        assert offset + 4 * (k + 1) == offset + 4 + 4 * k;
      }
      WriteBackParts(buffer, offset + 4, rest);
      assert WriteDecimal(buffer, offset, bits).buffer == WriteDecimal(first.buffer, offset + 4, rest).buffer;
    }
  }

  /** The four parts of a decimal survive `WriteDecimal` then `ReadDecimal`. */
  lemma DecimalRoundTrip(buffer: seq<uint8>, offset: int, bits: seq<int32>)
    requires |bits| == 4 && InRange(buffer, offset, 16)
    ensures WriteDecimal(buffer, offset, bits).count == 16
    ensures ReadDecimal(WriteDecimal(buffer, offset, bits).buffer, offset) == bits
  {
  }

  // ----------------------------------------------------------------- singles

  /** `ReadSingle` is a stub: it returns -1 whatever the bytes. */
  function ReadSingle(buffer: seq<uint8>, offset: int): real
  {
    -1.0
  }

  /** No array contents or offset change what `ReadSingle` returns, so no written value reads back. */
  lemma ReadSingleIgnoresBytes(a: seq<uint8>, i: int, b: seq<uint8>, j: int)
    ensures ReadSingle(a, i) == ReadSingle(b, j) == -1.0
  {
  }

  /**
   * `WriteSingle` stores `Mathf.FloatToHalf(f)`, a 16-bit half-precision
   * pattern, with `WriteUInt16`. The float-to-half conversion is a host call
   * and arrives here as its result `half`.
   */
  function WriteSingle(buffer: seq<uint8>, offset: int, half: uint16): (r: Written)
    requires InRange(buffer, offset, 2)
    ensures r.count == 2 && ChangedOnly(buffer, r.buffer, offset, offset + 2)
    ensures ReadUInt16(r.buffer, offset) == half
    ensures ReadSingle(r.buffer, offset) == -1.0
  {
    WriteUInt16(buffer, offset, half)
  }

  // -------------------------------------------------------- 64-bit integers

  /**
   * The value the 64-bit readers assemble from eight bytes:
   * `b0 << 56 | b1 << 48 | b2 << 40 | b3 << 24 | b4 << 16 | b5 << 8 | b6`.
   * Byte 3 lands at bit 24 instead of 32 and byte 7 is never read.
   */
  function Skewed64(b: seq<uint8>): uint64
    requires |b| == 8
  {
    b[0] as int * 0x100_0000_0000_0000 + b[1] as int * 0x1_0000_0000_0000 + b[2] as int * 0x100_0000_0000
    + Word32(b[3..7])
  }

  /**
   * `ReadUInt64` as the source computes it (see `Skewed64`): the eight bytes
   * of the result are bytes 0..2 of the array in place, a zero byte, then
   * bytes 3..6 one place later; byte 7 is dropped.
   */
  function ReadUInt64(buffer: seq<uint8>, offset: int): (r: uint64)
    requires InRange(buffer, offset, 8)
    ensures Bytes64(r) == buffer[offset..offset + 3] + [0] + buffer[offset + 3..offset + 7]
  {
    var b := buffer[offset..offset + 8];
    var shifted := b[..3] + [0] + b[3..7];
    assert shifted[..4] == b[..3] + [0] && shifted[4..] == b[3..7];
    assert Word32(shifted[..4]) == b[0] as int * 0x100_0000 + b[1] as int * 0x1_0000 + b[2] as int * 0x100;
    assert Word64(shifted) == Skewed64(b);
    forall k | 0 <= k < 4
      ensures b[3..7][k] == buffer[offset + 3..offset + 7][k]
    {
    }
    assert shifted == buffer[offset..offset + 3] + [0] + buffer[offset + 3..offset + 7];
    Word64Bytes(shifted);
    Skewed64(b)
  }

  /** `ReadInt64` as the source computes it: `Skewed64` in a 64-bit `long`, with the same bytes. */
  function ReadInt64(buffer: seq<uint8>, offset: int): (r: int64)
    requires InRange(buffer, offset, 8)
    ensures Bytes64(r) == buffer[offset..offset + 3] + [0] + buffer[offset + 3..offset + 7]
  {
    var u := ReadUInt64(buffer, offset);
    SameLow64Bytes(Signed64(u), u);
    Signed64(u)
  }

  function WriteUInt64(buffer: seq<uint8>, offset: int, u: uint64): (r: Written)
    requires InRange(buffer, offset, 8)
    ensures r.count == 8 && ChangedOnly(buffer, r.buffer, offset, offset + 8)
    ensures Word64(r.buffer[offset..offset + 8]) == u
  {
    Written(Put(buffer, offset, Bytes64(u)), 8)
  }

  function WriteInt64(buffer: seq<uint8>, offset: int, i: int64): (r: Written)
    requires InRange(buffer, offset, 8)
    ensures r.count == 8 && ChangedOnly(buffer, r.buffer, offset, offset + 8)
    ensures Word64(r.buffer[offset..offset + 8]) == i % 0x1_0000_0000_0000_0000
  {
    Written(Put(buffer, offset, Bytes64(i)), 8)
  }

  /**
   * What `ReadUInt64` returns after `WriteUInt64(u)`: the top 24 bits of `u`
   * in place, then bits 8..39 of `u` shifted down by 8; never `u` itself
   * unless its low 40 bits are already in that shape.
   */
  lemma ReadUInt64AfterWrite(buffer: seq<uint8>, offset: int, u: uint64)
    requires InRange(buffer, offset, 8)
    ensures ReadUInt64(WriteUInt64(buffer, offset, u).buffer, offset)
            == (u / 0x100_0000_0000) * 0x100_0000_0000 + (u / 0x100) % 0x1_0000_0000
  {
    var b := WriteUInt64(buffer, offset, u).buffer[offset..offset + 8];
    assert b == Bytes64(u);
    var y := u / 0x100;
    ShiftByOneByte(u);
    assert b[3..7] == Bytes32(y);
    Digit56(u);
    Digit48(u);
    Digit40(u);
    assert u % 0x1_0000_0000_0000_0000 == u;
  }

  /** Shifting right by 8 + k bits is shifting the byte-shifted value right by k bits. */
  lemma ShiftByOneByte(u: int)
    ensures u / 0x1_0000_0000 == (u / 0x100) / 0x100_0000
    ensures u / 0x100_0000 == (u / 0x100) / 0x1_0000
    ensures u / 0x1_0000 == (u / 0x100) / 0x100
  {
  }

  /** The 64-bit round trip fails: the value 1 reads back as 0. */
  lemma UInt64RoundTripFails(buffer: seq<uint8>, offset: int)
    requires InRange(buffer, offset, 8)
    ensures ReadUInt64(WriteUInt64(buffer, offset, 1).buffer, offset) == 0
    ensures ReadInt64(WriteInt64(buffer, offset, 1).buffer, offset) == 0
  {
    ReadUInt64AfterWrite(buffer, offset, 1);
    assert WriteInt64(buffer, offset, 1) == WriteUInt64(buffer, offset, 1);
  }

  /** The evidently intended unsigned reader: all eight bytes, most significant first. */
  function ReadUInt64Corrected(buffer: seq<uint8>, offset: int): (r: uint64)
    requires InRange(buffer, offset, 8)
    ensures Bytes64(r) == buffer[offset..offset + 8]
  {
    Word64Bytes(buffer[offset..offset + 8]);
    Word64(buffer[offset..offset + 8])
  }

  /** The evidently intended signed reader. */
  function ReadInt64Corrected(buffer: seq<uint8>, offset: int): (r: int64)
    requires InRange(buffer, offset, 8)
    ensures Bytes64(r) == buffer[offset..offset + 8]
  {
    Word64Bytes(buffer[offset..offset + 8]);
    var w := Word64(buffer[offset..offset + 8]);
    assert Bytes64(Signed64(w)) == Bytes64(w) by {
      SameLow64Bytes(Signed64(w), w);
    }
    Signed64(w)
  }

  /** Values congruent modulo 2^64 have the same eight bytes. */
  lemma SameLow64Bytes(x: int, y: int)
    requires x % 0x1_0000_0000_0000_0000 == y % 0x1_0000_0000_0000_0000
    ensures Bytes64(x) == Bytes64(y)
  {
    var bX := Bytes64(x);
    var bY := Bytes64(y);
    Word64Bytes(bX);
    Word64Bytes(bY);
  }

  /** With the corrected readers, every 64-bit value survives a write and a read. */
  lemma UInt64RoundTripCorrected(buffer: seq<uint8>, offset: int, u: uint64)
    requires InRange(buffer, offset, 8)
    ensures ReadUInt64Corrected(WriteUInt64(buffer, offset, u).buffer, offset) == u
  {
    var w := WriteUInt64(buffer, offset, u).buffer;
    assert Word64(w[offset..offset + 8]) == u;
  }

  lemma Int64RoundTripCorrected(buffer: seq<uint8>, offset: int, i: int64)
    requires InRange(buffer, offset, 8)
    ensures ReadInt64Corrected(WriteInt64(buffer, offset, i).buffer, offset) == i
  {
    var w := WriteInt64(buffer, offset, i).buffer;
    var v := Word64(w[offset..offset + 8]);
    assert v == i % 0x1_0000_0000_0000_0000;
    SignedOfResidue64(i);
  }

  /** Reinterpreting the 16-bit residue of a signed value as signed gives the value back. */
  lemma SignedOfResidue16(s: int16)
    ensures Signed16(s % 0x1_0000) == s
  {
    if s < 0 {
      assert s % 0x1_0000 == s + 0x1_0000;
    }
  }

  /** Reinterpreting the 32-bit residue of a signed value as signed gives the value back. */
  lemma SignedOfResidue32(i: int32)
    ensures Signed32(i % 0x1_0000_0000) == i
  {
    if i < 0 {
      assert i % 0x1_0000_0000 == i + 0x1_0000_0000;
    }
  }

  /** Reinterpreting the 64-bit residue of a signed value as signed gives the value back. */
  lemma SignedOfResidue64(i: int64)
    ensures Signed64(i % 0x1_0000_0000_0000_0000) == i
  {
    if i < 0 {
      assert i % 0x1_0000_0000_0000_0000 == i + 0x1_0000_0000_0000_0000;
    }
  }

  // ----------------------------------------------------------------- strings

  /**
   * Characters from `bytes[offset..]`, one per byte, stopping at the first
   * NUL, after `count` characters (a negative count never stops it), or at
   * the end of the array.
   */
  function ReadStringAscii(bytes: seq<uint8>, offset: int, count: int): (r: CsString)
    requires 0 <= offset
    ensures offset >= |bytes| ==> r == []
    ensures 0 <= count ==> |r| <= count
    ensures offset + |r| <= |bytes| || r == []
    ensures forall k :: 0 <= k < |r| ==> r[k] == bytes[offset + k] && r[k] != 0
    ensures |r| == count || offset + |r| >= |bytes| || bytes[offset + |r|] == 0
  {
    var window := if offset < |bytes| then bytes[offset..] else [];
    var limited := if 0 <= count < |window| then window[..count] else window;
    DecodeUntilNul(limited)
  }

  /**
   * The clauses of `ReadStringAscii`'s contract admit a single string: the
   * contract is a complete description of the reader.
   */
  lemma ReadStringAsciiIsDetermined(bytes: seq<uint8>, offset: int, count: int, s: CsString)
    requires 0 <= offset
    requires 0 <= count ==> |s| <= count
    requires offset + |s| <= |bytes| || s == []
    requires forall k :: 0 <= k < |s| ==> s[k] == bytes[offset + k] && s[k] != 0
    requires |s| == count || offset + |s| >= |bytes| || bytes[offset + |s|] == 0
    ensures s == ReadStringAscii(bytes, offset, count)
  {
    var r := ReadStringAscii(bytes, offset, count);
    ScanNotLonger(bytes, offset, count, r, s);
    ScanNotLonger(bytes, offset, count, s, r);
  }

  /**
   * A NUL-free run read from `offset` is no longer than one that stopped for
   * one of the reader's three reasons.
   */
  lemma ScanNotLonger(bytes: seq<uint8>, offset: int, count: int, longer: CsString, stopped: CsString)
    requires 0 <= offset
    requires 0 <= count ==> |longer| <= count
    requires offset + |longer| <= |bytes| || longer == []
    requires forall k :: 0 <= k < |longer| ==> longer[k] == bytes[offset + k] && longer[k] != 0
    requires |stopped| == count || offset + |stopped| >= |bytes| || bytes[offset + |stopped|] == 0
    ensures |longer| <= |stopped|
  {
    if |stopped| != count && offset + |stopped| < |bytes| {
      var window := bytes[offset..];
      assert window[|stopped|] == 0;
      assert forall k :: 0 <= k < |longer| ==> longer[k] == window[k];
    }
  }

  /** The `for` loop of `ReadStringAscii`, with its NUL and count tests; it computes the function above. */
  method ScanStringAscii(bytes: seq<uint8>, offset: int, count: int) returns (output: CsString)
    requires 0 <= offset
    ensures output == ReadStringAscii(bytes, offset, count)
  {
    output := [];
    var c := 0;
    var i := offset;
    while i < |bytes|
      invariant offset <= i && (i <= |bytes| || i == offset)
      invariant c == |output| == i - offset
      invariant 0 <= count ==> c <= count
      invariant forall k :: 0 <= k < |output| ==> output[k] == bytes[offset + k] && output[k] != 0
      decreases |bytes| - i
    {
      var b := bytes[i];
      if b == 0x00 || c == count {
        ReadStringAsciiIsDetermined(bytes, offset, count, output);
        return;
      }
      output := output + [b as int as CsChar];
      c := c + 1;
      i := i + 1;
    }
    ReadStringAsciiIsDetermined(bytes, offset, count, output);
  }

  /**
   * `WriteStringAscii` as the source has it: it converts the characters
   * (throwing, modelled as `None`, for one above 255), returns their number
   * and never stores them.
   */
  function WriteStringAscii(buffer: seq<uint8>, offset: int, str: CsString): (r: Option<Written>)
    ensures r.Some? <==> IsByteString(str)
    ensures r.Some? ==> r.value.buffer == buffer && r.value.count == |str|
  {
    match EncodeBytes(str)
    case None => None
    case Some(_) => Some(Written(buffer, |str|))
  }

  /** The text handed to `WriteStringAscii` cannot be read back: "A" over a NUL reads as "". */
  lemma WriteStringAsciiIsLost(buffer: seq<uint8>, offset: int)
    requires InRange(buffer, offset, 1) && buffer[offset] == 0
    ensures WriteStringAscii(buffer, offset, [65]).Some?
    ensures ReadStringAscii(WriteStringAscii(buffer, offset, [65]).value.buffer, offset, 1) == []
  {
  }

  /** The evidently intended writer: stores one byte per character at `offset`. */
  function WriteStringAsciiCorrected(buffer: seq<uint8>, offset: int, str: CsString): (r: Option<Written>)
    requires InRange(buffer, offset, |str|)
    ensures r.Some? <==> IsByteString(str)
    ensures r.Some? ==> r.value.count == |str| && ChangedOnly(buffer, r.value.buffer, offset, offset + |str|)
    ensures r.Some? ==> forall k :: 0 <= k < |str| ==> r.value.buffer[offset + k] == str[k]
  {
    match EncodeBytes(str)
    case None => None
    case Some(bs) => Some(Written(Put(buffer, offset, bs), |str|))
  }

  /** With the corrected writer, a NUL-free one-byte string reads back unchanged. */
  lemma {:induction false} StringRoundTripCorrected(buffer: seq<uint8>, offset: int, str: CsString)
    requires InRange(buffer, offset, |str|)
    requires IsNulFreeByteString(str)
    ensures WriteStringAsciiCorrected(buffer, offset, str).Some?
    ensures ReadStringAscii(WriteStringAsciiCorrected(buffer, offset, str).value.buffer, offset, |str|) == str
  {
    var w := WriteStringAsciiCorrected(buffer, offset, str).value.buffer;
    var window := if offset < |w| then w[offset..] else [];
    var limited := if 0 <= |str| < |window| then window[..|str|] else window;
    assert limited == EncodeBytes(str).value + [];
    DecodeEncoded(str, []);
  }
}

=== FILE: buffered_writer.dfy ===
/**
 * `BufferedWriter`: a cursor over a byte array. `Begin`/`BeginEmpty` claim
 * the writer, the `Write*` calls store at the cursor, and `End` releases
 * it. Most typed writers have empty bodies and leave the writer as it is.
 *
 * Writing outside the array throws in C#; those calls are excluded by the
 * preconditions.
 */
module BufferedWriter {
  import opened Wrappers
  import opened Numeric
  import BufferToolkit

  /** The fields of one writer; `buffer` is `None` for a null array. */
  datatype Writer = Writer(buffer: Option<seq<uint8>>, offset: int, count: int, written: int, inUse: bool)

  /** The field initialisers: no array, offset and count -1, not in use. */
  const Unused: Writer := Writer(None, -1, -1, 0, false)

  /** `isFree()`. */
  predicate IsFree(w: Writer)
  {
    !w.inUse
  }

  /** `IsNotReady()`: no array, or offset or count still at -1. */
  predicate IsNotReady(w: Writer)
  {
    w.buffer.None? || w.offset == -1 || w.count == -1
  }

  /** `IsFull()`. */
  predicate IsFull(w: Writer)
  {
    w.offset == w.count
  }

  /** The writer after a `Begin` call and the boolean the call returns. */
  datatype Began = Began(writer: Writer, ok: bool)

  /**
   * How a `BeginEmpty` call ends: with a boolean result, or with the
   * exception `new byte[len]` throws for a negative `len`.
   */
  datatype Outcome = Returned(ok: bool) | ThrewOverflow

  /** The writer after a `BeginEmpty` call and how the call ended. */
  datatype EmptyBegan = EmptyBegan(writer: Writer, outcome: Outcome)

  /**
   * `BeginEmpty(len)` as written: claims a free writer for a zeroed array of
   * `len` bytes, but returns false whether or not it did. `written` is not
   * reset. The writer is marked in use before the array is allocated, so a
   * negative `len` throws with the writer claimed and its old fields kept.
   */
  function BeginEmpty(w: Writer, len: int): (r: EmptyBegan)
    ensures r.outcome != Returned(true)
    ensures !IsFree(w) ==> r == EmptyBegan(w, Returned(false))
    ensures IsFree(w) ==> !IsFree(r.writer)
    ensures r.outcome == ThrewOverflow <==> IsFree(w) && len < 0
    ensures r.outcome == ThrewOverflow ==> r.writer == w.(inUse := true)
    ensures IsFree(w) && 0 <= len ==>
      && !IsNotReady(r.writer)
      && r.writer.buffer == Some(seq(len, _ => 0))
      && r.writer.offset == 0 && r.writer.count == len
      && r.writer.written == w.written
  {
    if w.inUse then EmptyBegan(w, Returned(false))
    else if len < 0 then EmptyBegan(w.(inUse := true), ThrewOverflow)
    else EmptyBegan(Writer(Some(seq(len, _ => 0)), 0, len, w.written, true), Returned(false))
  }

  /** The caller of `BeginEmpty` cannot tell a claimed writer from a busy one. */
  lemma BeginEmptyResultIsUninformative(free: Writer, busy: Writer, len: nat)
    requires IsFree(free) && !IsFree(busy)
    ensures BeginEmpty(free, len).outcome == BeginEmpty(busy, len).outcome
    ensures BeginEmpty(free, len).writer != free && BeginEmpty(busy, len).writer == busy
  {
  }

  /**
   * After `BeginEmpty` throws on a negative length the writer stays claimed:
   * every later `Begin` fails until `End` is called.
   */
  lemma NegativeLengthKeepsClaim(w: Writer, len: int, buffer: Option<seq<uint8>>, offset: int, count: int)
    requires IsFree(w) && len < 0
    ensures BeginEmpty(w, len).outcome == ThrewOverflow
    ensures !Begin(BeginEmpty(w, len).writer, buffer, offset, count).ok
    ensures Begin(End(BeginEmpty(w, len).writer), buffer, offset, count).ok
  {
  }

  /** `BeginEmpty` returning what its documentation promises: whether it claimed the writer. */
  function BeginEmptyCorrected(w: Writer, len: int): (r: EmptyBegan)
    ensures r.outcome == Returned(true) <==> IsFree(w) && 0 <= len
    ensures r.outcome == ThrewOverflow <==> BeginEmpty(w, len).outcome == ThrewOverflow
    ensures r.writer == BeginEmpty(w, len).writer
  {
    var b := BeginEmpty(w, len);
    if b.outcome == ThrewOverflow then b else EmptyBegan(b.writer, Returned(!w.inUse))
  }

  /**
   * `Begin(buffer, offset, count)`: claims a free writer for the given array
   * and window and resets `written`; a writer in use is left alone.
   */
  function Begin(w: Writer, buffer: Option<seq<uint8>>, offset: int, count: int): (r: Began)
    ensures r.ok <==> IsFree(w)
    ensures !r.ok ==> r.writer == w
    ensures r.ok ==>
      && !IsFree(r.writer)
      && r.writer.buffer == buffer && r.writer.offset == offset && r.writer.count == count
      && r.writer.written == 0
  {
    if w.inUse then Began(w, false)
    else Began(Writer(buffer, offset, count, 0, true), true)
  }

  /** `End()`: releases the writer and forgets its array; `written` is kept. */
  function End(w: Writer): (r: Writer)
    ensures IsNotReady(r) && IsFree(r)
    ensures r.buffer.None? && r.offset == -1 && r.count == -1 && !r.inUse
    ensures r.written == w.written
    ensures Begin(r, Some([]), 0, 0).ok
  {
    w.(buffer := None, offset := -1, count := -1, inUse := false)
  }

  // ---------------------------------------------------------- cursor writes

  /** `n` bytes from the cursor lie inside the array. */
  predicate CanWrite(w: Writer, n: nat)
  {
    w.buffer.Some? && 0 <= w.offset && w.offset + n <= |w.buffer.value|
  }

  /** Only the array and the cursor differ between `w` and `r`, and the array only in `[lo, hi)`. */
  predicate CursorStep(w: Writer, r: Writer, lo: int, hi: int)
  {
    && r.buffer.Some? && w.buffer.Some?
    && BufferToolkit.ChangedOnly(w.buffer.value, r.buffer.value, lo, hi)
    && r.count == w.count && r.written == w.written && r.inUse == w.inUse
  }

  /** `WriteByte(b)`: stores `b` at the cursor and advances it by one. */
  function WriteByte(w: Writer, b: uint8): (r: Writer)
    requires CanWrite(w, 1)
    ensures CursorStep(w, r, w.offset, w.offset + 1) && r.offset == w.offset + 1
    ensures r.buffer.value[w.offset] == b
  {
    w.(buffer := Some(BufferToolkit.WriteByte(w.buffer.value, w.offset, b).buffer), offset := w.offset + 1)
  }

  /** `WriteBoolean(b)`: stores 0xFF or 0x00 at the cursor and advances it by one. */
  function WriteBoolean(w: Writer, b: bool): (r: Writer)
    requires CanWrite(w, 1)
    ensures CursorStep(w, r, w.offset, w.offset + 1) && r.offset == w.offset + 1
    ensures r.buffer.value[w.offset] == (if b then 0xFF else 0x00)
    ensures BufferToolkit.ReadBoolean(r.buffer.value, w.offset) == b
  {
    w.(buffer := Some(BufferToolkit.WriteBoolean(w.buffer.value, w.offset, b).buffer), offset := w.offset + 1)
  }

  /** `WriteChar(c)`: stores `c` high byte first and advances the cursor by two. */
  function WriteChar(w: Writer, c: CsChar): (r: Writer)
    requires CanWrite(w, 2)
    ensures CursorStep(w, r, w.offset, w.offset + 2) && r.offset == w.offset + 2
    ensures BufferToolkit.ReadChar(r.buffer.value, w.offset) == c
  {
    w.(buffer := Some(BufferToolkit.WriteChar(w.buffer.value, w.offset, c).buffer), offset := w.offset + 2)
  }

  /** `WriteChars(chars)`: `WriteChar` for each character in order. */
  function WriteChars(w: Writer, chars: seq<CsChar>): (r: Writer)
    requires CanWrite(w, 2 * |chars|)
    decreases |chars|
    ensures CursorStep(w, r, w.offset, w.offset + 2 * |chars|) && r.offset == w.offset + 2 * |chars|
    ensures forall k :: 0 <= k < |chars| ==> BufferToolkit.ReadChar(r.buffer.value, w.offset + 2 * k) == chars[k]
  {
    if |chars| == 0 then w
    else
      var first := WriteChar(w, chars[0]);
      var r := WriteChars(first, chars[1..]);
      WriteCharsStep(w, chars, first, r);
      r
  }

  /** One step of `WriteChars`: the first character, then the rest after it. */
  lemma WriteCharsStep(w: Writer, chars: seq<CsChar>, first: Writer, r: Writer)
    requires |chars| > 0 && CanWrite(w, 2 * |chars|)
    requires first == WriteChar(w, chars[0])
    requires CursorStep(first, r, first.offset, first.offset + 2 * |chars[1..]|)
    requires r.offset == first.offset + 2 * |chars[1..]|
    requires forall k :: 0 <= k < |chars[1..]| ==> BufferToolkit.ReadChar(r.buffer.value, first.offset + 2 * k) == chars[1..][k]
    ensures CursorStep(w, r, w.offset, w.offset + 2 * |chars|) && r.offset == w.offset + 2 * |chars|
    ensures forall k :: 0 <= k < |chars| ==> BufferToolkit.ReadChar(r.buffer.value, w.offset + 2 * k) == chars[k]
  {
    assert BufferToolkit.ReadChar(r.buffer.value, w.offset) == chars[0] by {
      assert r.buffer.value[w.offset..w.offset + 2] == first.buffer.value[w.offset..w.offset + 2];
    }
    forall k | 1 <= k < |chars|
      ensures BufferToolkit.ReadChar(r.buffer.value, w.offset + 2 * k) == chars[k]
    {
      assert chars[k] == chars[1..][k - 1];
      assert w.offset + 2 * k == first.offset + 2 * (k - 1);
    }
  }

  /**
   * `WriteBytes(src, index, count)`: copies `count` bytes to the cursor
   * position but, unlike every other writer, leaves the cursor where it was.
   */
  function WriteBytes(w: Writer, src: seq<uint8>, index: int, count: int): (r: Writer)
    requires count <= 0 || (CanWrite(w, count) && BufferToolkit.InRange(src, index, count))
    ensures count <= 0 ==> r == w
    ensures 0 < count ==> CursorStep(w, r, w.offset, w.offset + count)
    ensures 0 < count ==> r.buffer.value[w.offset..w.offset + count] == src[index..index + count]
    ensures r.offset == w.offset
  {
    if count <= 0 then w
    else w.(buffer := Some(BufferToolkit.WriteBytes(w.buffer.value, w.offset, src, index, count).buffer))
  }

  // ------------------------------------------------------------ empty stubs

  function WriteDouble(w: Writer, d: real): Writer { w }
  function WriteInt16(w: Writer, s: int16): Writer { w }
  function WriteInt32(w: Writer, i: int32): Writer { w }
  function WriteInt64(w: Writer, i: int64): Writer { w }
  function WriteSByte(w: Writer, s: int8): Writer { w }
  function WriteSingle(w: Writer, f: real): Writer { w }
  function WriteStringAscii(w: Writer, str: CsString): Writer { w }
  function WriteUInt16(w: Writer, u: uint16): Writer { w }
  function WriteUInt32(w: Writer, u: uint32): Writer { w }
  /** The source declares this parameter as `uint`, not `ulong`. */
  function WriteUInt64(w: Writer, u: uint32): Writer { w }
  function Flush(w: Writer): Writer { w }
  function Write(w: Writer): Writer { w }

  /**
   * `WriteDecimal`: `WriteInt32` for each of the four 32-bit parts
   * `decimal.GetBits` produces; since `WriteInt32` is empty, nothing changes.
   * The recursion only mirrors the source's loop over the parts: each step is
   * the identity, so the induction behind `r == w` is trivial.
   */
  function WriteDecimal(w: Writer, bits: seq<int32>): (r: Writer)
    decreases |bits|
    ensures r == w
  {
    if |bits| == 0 then w else WriteDecimal(WriteInt32(w, bits[0]), bits[1..])
  }

  /** Every typed writer other than the byte, boolean and character ones leaves the writer unchanged. */
  lemma TypedWritersAreNoOps(w: Writer, d: real, s: int16, i: int32, l: int64, sb: int8, str: CsString,
                             u16: uint16, u32: uint32)
    ensures WriteDouble(w, d) == w && WriteSingle(w, d) == w
    ensures WriteInt16(w, s) == w && WriteInt32(w, i) == w && WriteInt64(w, l) == w && WriteSByte(w, sb) == w
    ensures WriteUInt16(w, u16) == w && WriteUInt32(w, u32) == w && WriteUInt64(w, u32) == w
    ensures WriteStringAscii(w, str) == w && Flush(w) == w && Write(w) == w
  {
  }

  /**
   * `IsFull` compares the cursor with `count`, so it treats `count` as the
   * position where writing ends, while `Begin` documents it as a number of
   * bytes. The two readings agree for a window starting at offset 0: filling
   * such a window with characters makes the writer report full.
   */
  lemma {:induction false} CharsFillWindow(w: Writer, buffer: seq<uint8>, chars: seq<CsChar>)
    requires IsFree(w)
    requires 2 * |chars| <= |buffer|
    ensures var b := Begin(w, Some(buffer), 0, 2 * |chars|);
            b.ok && CanWrite(b.writer, 2 * |chars|) && IsFull(WriteChars(b.writer, chars))
  {
  }

  /**
   * From a later offset, writing exactly `count` bytes' worth of characters
   * leaves the cursor past `count`, so the writer does not report full.
   */
  lemma {:induction false} CountIsAnEndPosition(w: Writer, buffer: seq<uint8>, offset: int, chars: seq<CsChar>)
    requires IsFree(w)
    requires 0 < offset && offset + 2 * |chars| <= |buffer|
    ensures var b := Begin(w, Some(buffer), offset, 2 * |chars|);
            b.ok && CanWrite(b.writer, 2 * |chars|) && !IsFull(WriteChars(b.writer, chars))
  {
  }

  /**
   * `isFree` across a writer's life: a new writer is free, `Begin` succeeds
   * exactly on a free writer and claims it, and `End` frees it again.
   */
  lemma FreeUntilClaimed(w: Writer, buffer: Option<seq<uint8>>, offset: int, count: int)
    ensures IsFree(Unused)
    ensures IsFree(w) <==> Begin(w, buffer, offset, count).ok
    ensures !IsFree(Begin(w, buffer, offset, count).writer) && IsFree(End(w))
  {
  }

  /**
   * `IsNotReady` across a writer's life: a new or ended writer is not ready;
   * a successful `Begin` makes it ready unless given a null array or a -1
   * offset or count.
   */
  lemma ReadyOnlyWithWindow(w: Writer, buffer: Option<seq<uint8>>, offset: int, count: int)
    ensures IsNotReady(Unused) && IsNotReady(End(w))
    ensures Begin(w, buffer, offset, count).ok ==>
      (IsNotReady(Begin(w, buffer, offset, count).writer) <==> buffer.None? || offset == -1 || count == -1)
  {
  }

  /**
   * `IsFull` across a writer's life: a new or ended writer reports full (its
   * offset and count are both -1), and a freshly claimed one reports full
   * exactly when its offset equals its count.
   */
  lemma FullWhenCursorMeetsCount(w: Writer, buffer: Option<seq<uint8>>, offset: int, count: int)
    ensures IsFull(Unused) && IsFull(End(w))
    ensures Begin(w, buffer, offset, count).ok ==>
      (IsFull(Begin(w, buffer, offset, count).writer) <==> offset == count)
  {
  }
}

=== FILE: byte_helpers.dfy ===
/**
 * The byte helpers of `UdonNetController` ("Byte operations"), which
 * `NetworkedUNPlayer` repeats verbatim for the subset it needs
 * (`Uint32ToBytes`, `Int32ToBytes`, `StringToBytes`, `BytesToUint32`,
 * `BytesToInt32`, `BytesToString`). Both copies are modelled here once.
 */
module ByteHelpers {
  import opened Wrappers
  import opened Numeric
  import opened BigEndian
  import opened Ascii

  function UshortToBytes(x: uint16): (r: seq<uint8>)
    ensures |r| == 2 && Word16(r[0], r[1]) == x
  {
    Bytes16(x)
  }

  function ShortToBytes(x: int16): (r: seq<uint8>)
    ensures |r| == 2 && Signed16(Word16(r[0], r[1])) == x
  {
    Bytes16(x)
  }

  function Uint32ToBytes(x: uint32): (r: seq<uint8>)
    ensures |r| == 4 && Word32(r) == x
  {
    Bytes32(x)
  }

  function Int32ToBytes(x: int32): (r: seq<uint8>)
    ensures |r| == 4 && Signed32(Word32(r)) == x
  {
    Bytes32(x)
  }

  /**
   * One byte per character; `None` where `Convert.ToByte` throws because a
   * character is above 255.
   */
  function StringToBytes(s: CsString): (r: Option<seq<uint8>>)
    ensures r.Some? <==> IsByteString(s)
    ensures r.Some? ==> |r.value| == |s| && forall k :: 0 <= k < |s| ==> r.value[k] == s[k]
  {
    EncodeBytes(s)
  }

  /** Reading two bytes gives the value whose bytes they are. */
  function BytesToUshort(bytes: seq<uint8>, offset: int): (r: uint16)
    requires 0 <= offset && offset + 2 <= |bytes|
    ensures UshortToBytes(r) == bytes[offset..offset + 2]
  {
    Word16Bytes(bytes[offset], bytes[offset + 1]);
    Word16(bytes[offset], bytes[offset + 1])
  }

  function BytesToShort(bytes: seq<uint8>, offset: int): (r: int16)
    requires 0 <= offset && offset + 2 <= |bytes|
    ensures ShortToBytes(r) == bytes[offset..offset + 2]
  {
    var w := Word16(bytes[offset], bytes[offset + 1]);
    Word16Bytes(bytes[offset], bytes[offset + 1]);
    assert Bytes16(Signed16(w)) == Bytes16(w) by {
      assert Signed16(w) % 0x1_0000 == w;
      Word16Bytes(Bytes16(Signed16(w))[0], Bytes16(Signed16(w))[1]);
    }
    Signed16(w)
  }

  function BytesToUint32(bytes: seq<uint8>, offset: int): (r: uint32)
    requires 0 <= offset && offset + 4 <= |bytes|
    ensures Uint32ToBytes(r) == bytes[offset..offset + 4]
  {
    Word32Bytes(bytes[offset..offset + 4]);
    Word32(bytes[offset..offset + 4])
  }

  function BytesToInt32(bytes: seq<uint8>, offset: int): (r: int32)
    requires 0 <= offset && offset + 4 <= |bytes|
    ensures Int32ToBytes(r) == bytes[offset..offset + 4]
  {
    var w := Word32(bytes[offset..offset + 4]);
    Word32Bytes(bytes[offset..offset + 4]);
    assert Bytes32(Signed32(w)) == Bytes32(w) by {
      assert Signed32(w) % 0x1_0000_0000 == w;
      Word32Bytes(Bytes32(Signed32(w)));
    }
    Signed32(w)
  }

  /** The characters of `bytes[offset..]` up to the first NUL or the end of the array. */
  function BytesToString(bytes: seq<uint8>, offset: int): (r: CsString)
    requires 0 <= offset
    ensures offset + |r| <= |bytes| || r == []
    ensures forall k :: 0 <= k < |r| ==> r[k] == bytes[offset + k] && r[k] != 0
    ensures offset + |r| >= |bytes| || bytes[offset + |r|] == 0
  {
    DecodeUntilNul(if offset < |bytes| then bytes[offset..] else [])
  }

  /** Every 16-bit value, signed or not, survives the two-byte encoding. */
  lemma Short16RoundTrip(u: uint16, s: int16)
    ensures BytesToUshort(UshortToBytes(u), 0) == u
    ensures BytesToShort(ShortToBytes(s), 0) == s
  {
  }

  /** Every 32-bit value, signed or not, survives the four-byte encoding. */
  lemma Word32RoundTrip(u: uint32, i: int32)
    ensures BytesToUint32(Uint32ToBytes(u), 0) == u
    ensures BytesToInt32(Int32ToBytes(i), 0) == i
  {
    assert Uint32ToBytes(u)[0..4] == Uint32ToBytes(u);
    assert Int32ToBytes(i)[0..4] == Int32ToBytes(i);
  }

  /** A string of characters 1..255 survives `StringToBytes` then `BytesToString`. */
  lemma StringRoundTrip(s: CsString)
    requires IsNulFreeByteString(s)
    ensures StringToBytes(s).Some?
    ensures |StringToBytes(s).value| == |s|
    ensures BytesToString(StringToBytes(s).value, 0) == s
  {
    DecodeEncoded(s, []);
    assert EncodeBytes(s).value + [] == EncodeBytes(s).value;
    if |s| > 0 {
      assert EncodeBytes(s).value[0..] == EncodeBytes(s).value;
    }
  }
}

=== FILE: controller.dfy ===
/**
 * `UdonNetController`: the pool of `NetworkedUNPlayer` slots and the
 * segment-count arithmetic. (Its `Handle`, `Encode` and `Decode` have their
 * bodies commented out; its byte helpers live in `ByteHelpers`.)
 *
 * Host ownership is abstracted as data: `pool` lists, per slot, the id of
 * the player owning that slot's object (`None` before `Start` has built
 * the pool); `controllerOwnedLocally` is `Networking.IsOwner(gameObject)`
 * for the controller itself, and `localId` is the local player's id.
 */
module Controller {
  import opened Wrappers
  import opened Numeric

  type PlayerId = int

  /** The default `networkFrameSize`. */
  const DefaultNetworkFrameSize: int := 37

  // -------------------------------------------------------------- slot pool

  /**
   * The lowest slot at or after `from` owned by `who`, if any (the scan of
   * `GetNetworkedUNPlayer` and `OnPlayerJoined`).
   */
  function FirstOwnedFrom(owners: seq<PlayerId>, who: PlayerId, from: nat): (r: Option<nat>)
    decreases |owners| - from
    ensures r.Some? ==> from <= r.value < |owners| && owners[r.value] == who
    ensures r.Some? ==> forall j :: from <= j < r.value ==> owners[j] != who
    ensures r.None? ==> forall j :: from <= j < |owners| ==> owners[j] != who
  {
    if from >= |owners| then None
    else if owners[from] == who then Some(from)
    else FirstOwnedFrom(owners, who, from + 1)
  }

  /** What `GetNetworkedUNPlayer` returns. */
  datatype SlotLookup =
    | Found(slot: nat)   // pool[slot]
    | NotFound           // null
    | OutOfRange         // pool[0] on an empty pool throws

  /**
   * The slot through which `player` sends: slot 0 for the controller's owner
   * asking about itself, otherwise the lowest slot from 1 on that `player`
   * owns. Slot 0 is never returned for anyone else.
   */
  function GetNetworkedUNPlayer(pool: Option<seq<PlayerId>>, controllerOwnedLocally: bool, localId: PlayerId, player: PlayerId)
    : (r: SlotLookup)
    ensures pool.None? ==> r == NotFound
    ensures r.OutOfRange? <==> pool.Some? && controllerOwnedLocally && player == localId && |pool.value| == 0
    ensures r == Found(0) <==> pool.Some? && controllerOwnedLocally && player == localId && |pool.value| > 0
    ensures r.Found? && r.slot != 0 ==>
      && !(controllerOwnedLocally && player == localId)
      && pool.Some? && r.slot < |pool.value| && pool.value[r.slot] == player
      && forall j :: 1 <= j < r.slot ==> pool.value[j] != player
    ensures r.NotFound? && pool.Some? ==>
      && !(controllerOwnedLocally && player == localId)
      && forall j :: 1 <= j < |pool.value| ==> pool.value[j] != player
  {
    if pool.None? then NotFound
    else if controllerOwnedLocally && player == localId then
      if |pool.value| > 0 then Found(0) else OutOfRange
    else match FirstOwnedFrom(pool.value, player, 1)
      case Some(i) => Found(i)
      case None => NotFound
  }

  /**
   * `GetLocalUNPlayer`: the lookup for the local player. The controller's
   * owner sends through slot 0; any other peer through the lowest slot from
   * 1 on that it owns, if there is one.
   */
  function GetLocalUNPlayer(pool: Option<seq<PlayerId>>, controllerOwnedLocally: bool, localId: PlayerId): (r: SlotLookup)
    ensures pool.None? ==> r == NotFound
    ensures controllerOwnedLocally && pool.Some? ==> r == (if |pool.value| > 0 then Found(0) else OutOfRange)
    ensures !controllerOwnedLocally && pool.Some? ==>
      (r.Found? <==> exists j :: 1 <= j < |pool.value| && pool.value[j] == localId) && !r.OutOfRange?
    ensures !controllerOwnedLocally && r.Found? ==>
      && pool.Some? && 1 <= r.slot < |pool.value| && pool.value[r.slot] == localId
      && forall j :: 1 <= j < r.slot ==> pool.value[j] != localId
  {
    GetNetworkedUNPlayer(pool, controllerOwnedLocally, localId, localId)
  }

  /** What `OnPlayerJoined` did. */
  datatype JoinOutcome =
    | NotAuthority       // this peer does not own the controller: nothing happens
    | Assigned(slot: nat)
    | PoolFull           // the warning branch
    | NullPool           // `pool.Length` on a pool `Start` has not built throws

  datatype Joined = Joined(pool: Option<seq<PlayerId>>, outcome: JoinOutcome)

  /**
   * `OnPlayerJoined`: the controller's owner hands the lowest slot from 1 on
   * that it still owns to the joining player.
   */
  function OnPlayerJoined(pool: Option<seq<PlayerId>>, controllerOwnedLocally: bool, localId: PlayerId, joiner: PlayerId)
    : (r: Joined)
    ensures !controllerOwnedLocally ==> r == Joined(pool, NotAuthority)
    ensures r.outcome.NotAuthority? <==> !controllerOwnedLocally
    ensures controllerOwnedLocally && pool.Some? && (exists j :: 1 <= j < |pool.value| && pool.value[j] == localId) ==>
      r.outcome.Assigned?
    ensures r.outcome.NullPool? <==> controllerOwnedLocally && pool.None?
    ensures !r.outcome.Assigned? ==> r.pool == pool
    ensures r.outcome.Assigned? ==>
      var i := r.outcome.slot;
      && pool.Some? && r.pool.Some? && 1 <= i < |pool.value|
      && pool.value[i] == localId
      && (forall j :: 1 <= j < i ==> pool.value[j] != localId)
      && r.pool.value == pool.value[i := joiner]
    ensures r.outcome.PoolFull? ==>
      pool.Some? && forall j :: 1 <= j < |pool.value| ==> pool.value[j] != localId
    ensures controllerOwnedLocally && pool.Some? ==>
      (r.outcome.PoolFull? <==> forall j :: 1 <= j < |pool.value| ==> pool.value[j] != localId)
  {
    if !controllerOwnedLocally then Joined(pool, NotAuthority)
    else if pool.None? then Joined(pool, NullPool)
    else match FirstOwnedFrom(pool.value, localId, 1)
      case Some(i) => Joined(Some(pool.value[i := joiner]), Assigned(i))
      case None => Joined(pool, PoolFull)
  }

  /** A join never touches slot 0, and changes at most one slot. */
  lemma JoinKeepsOtherSlots(pool: seq<PlayerId>, controllerOwnedLocally: bool, localId: PlayerId, joiner: PlayerId)
    requires |pool| > 0
    ensures var r := OnPlayerJoined(Some(pool), controllerOwnedLocally, localId, joiner);
            && r.pool.Some? && |r.pool.value| == |pool| && r.pool.value[0] == pool[0]
            && forall j :: 0 <= j < |pool| && !(r.outcome.Assigned? && j == r.outcome.slot) ==> r.pool.value[j] == pool[j]
  {
  }

  /**
   * When the controller's owner still owns a slot from 1 on, a join assigns
   * one, and the joiner's lookup then finds it, provided the joiner is not the
   * local player and owned no slot before.
   */
  lemma {:induction false} JoinThenLookup(pool: seq<PlayerId>, localId: PlayerId, joiner: PlayerId, observer: bool)
    requires joiner != localId
    requires forall j :: 1 <= j < |pool| ==> pool[j] != joiner
    requires exists j :: 1 <= j < |pool| && pool[j] == localId
    ensures var r := OnPlayerJoined(Some(pool), true, localId, joiner);
            GetNetworkedUNPlayer(r.pool, observer, localId, joiner) == Found(r.outcome.slot)
  {
    var r := OnPlayerJoined(Some(pool), true, localId, joiner);
    assert r.outcome.Assigned?;
    var i := r.outcome.slot;
    var after := r.pool.value;
    assert forall j :: 1 <= j < i ==> after[j] == pool[j];
    assert after[i] == joiner;
  }

  /**
   * Three slots, all owned by the authority: two joins take slots 1 and 2,
   * a third finds the pool full and changes nothing.
   */
  lemma ThreeSlotScenario(authority: PlayerId, a: PlayerId, b: PlayerId, c: PlayerId)
    requires a != authority && b != authority
    ensures var j1 := OnPlayerJoined(Some([authority, authority, authority]), true, authority, a);
            var j2 := OnPlayerJoined(j1.pool, true, authority, b);
            var j3 := OnPlayerJoined(j2.pool, true, authority, c);
            && j1.outcome == Assigned(1) && j2.outcome == Assigned(2) && j3.outcome == PoolFull
            && j3.pool == Some([authority, a, b])
  {
    var s0 := [authority, authority, authority];
    assert FirstOwnedFrom(s0, authority, 1) == Some(1);
    assert s0[1 := a] == [authority, a, authority];
    var s1 := [authority, a, authority];
    assert FirstOwnedFrom(s1, authority, 1) == Some(2);
    assert s1[2 := b] == [authority, a, b];
    var s2 := [authority, a, b];
    assert FirstOwnedFrom(s2, authority, 1) == None;
  }

  // --------------------------------------------------------------- segments

  /**
   * `CalculateSegmentsCount` as written: `bufferLen / availableSize` is an
   * integer division, so the `Mathf.Ceil` applied afterwards has nothing to
   * round and the count is the truncated quotient. The flags are ignored.
   */
  function CalculateSegmentsCount(networkFrameSize: int, packetFlags: uint8, bufferLen: int): (r: int)
    requires networkFrameSize != 8
    ensures var available := networkFrameSize - 8;
            0 <= bufferLen && 0 < available ==> r * available <= bufferLen < (r + 1) * available
    ensures var available := networkFrameSize - 8;
            var magnitude := if available > 0 then available else -available;
            && (0 <= bufferLen ==> 0 <= bufferLen - r * available < magnitude)
            && (bufferLen < 0 ==> 0 <= r * available - bufferLen < magnitude)
  {
    var headerLen := 8;
    var availableSize := networkFrameSize - headerLen;
    TruncDiv(bufferLen, availableSize)
  }

  /** The packet flags do not influence the count. */
  lemma SegmentsCountIgnoresFlags(networkFrameSize: int, f1: uint8, f2: uint8, bufferLen: int)
    requires networkFrameSize != 8
    ensures CalculateSegmentsCount(networkFrameSize, f1, bufferLen) == CalculateSegmentsCount(networkFrameSize, f2, bufferLen)
  {
  }

  /**
   * The segments counted as written do not cover the buffer: with the
   * default 37-byte frame, 30 bytes give one 29-byte segment.
   */
  lemma SegmentsCountLosesTail()
    ensures CalculateSegmentsCount(DefaultNetworkFrameSize, 0, 30) == 1
    ensures CalculateSegmentsCount(DefaultNetworkFrameSize, 0, 30) * (DefaultNetworkFrameSize - 8) < 30
  {
  }

  /**
   * The evidently intended count: the fewest segments of `networkFrameSize - 8`
   * bytes that hold `bufferLen` bytes.
   */
  function SegmentsCountCorrected(networkFrameSize: int, bufferLen: nat): (r: nat)
    requires networkFrameSize > 8
    ensures r * (networkFrameSize - 8) >= bufferLen
    ensures r == 0 || (r - 1) * (networkFrameSize - 8) < bufferLen
  {
    var available := networkFrameSize - 8;
    (bufferLen + available - 1) / available
  }
}

=== FILE: networked_player.dfy ===
/**
 * `NetworkedUNPlayer`: one replicated channel. Its synced `data` string is
 * the Base64 text of a fixed-size frame; Base64 is a bijection the model
 * does not look into, so `data` and `lastData` hold the frame bytes
 * themselves (`None` for a null string).
 *
 * Frame layout written by `Encode` and read by `Decode`:
 *   bytes 0..3  event id, big-endian unsigned
 *   byte  4     packet type (flags)
 *   bytes 5..8  target player id, big-endian signed, only when flag 0x02 is set
 *   then        payload characters, one byte each, then zero padding.
 *
 * The host's ownership test, the connected controller (through its
 * `networkFrameSize`) and the clock are parameters.
 */
module NetworkedPlayer {
  import opened Wrappers
  import opened Numeric
  import opened Ascii
  import opened ByteHelpers

  const PacketLossless: uint8 := 0x01
  const PacketTargetedPlayer: uint8 := 0x02

  /** The raw bytes behind one Base64 channel value. */
  type Frame = seq<uint8>

  /** `(packetType & PacketTargetedPlayer) != 0`. */
  predicate Targeted(packetType: uint8)
  {
    (packetType / 2) % 2 == 1
  }

  /** Bytes before the payload: event id and flags, plus the target id when targeted. */
  function HeaderLength(packetType: uint8): nat
  {
    if Targeted(packetType) then 9 else 5
  }

  function Zeros(n: nat): (r: seq<uint8>)
    ensures |r| == n && forall k :: 0 <= k < n ==> r[k] == 0
  {
    seq(n, _ => 0)
  }

  /** Why `Encode` produced no frame: `null` returned, or an exception thrown. */
  datatype EncodeError =
    | NoController   // no UdonNetController connected: returns null
    | TooLong        // header plus payload exceed the frame: returns null
    | Exception      // a header byte falls outside the frame, or a character is above 255

  /** The decoded fields, in the order of the source's `object[4]`. */
  datatype Packet = Packet(eventId: uint32, packetType: uint8, targetPlayerId: Option<int32>, stringData: CsString)

  /** `frame` holds exactly the fields `Encode` was given, in the layout described at the top of this module. */
  predicate FrameLayout(frame: Frame, size: int, eventId: uint32, packetType: uint8, targetPlayerId: int32, stringData: CsString)
  {
    var h := HeaderLength(packetType);
    && |frame| == size
    && h + |stringData| <= size
    && BytesToUint32(frame, 0) == eventId
    && frame[4] == packetType
    && (Targeted(packetType) ==> BytesToInt32(frame, 5) == targetPlayerId)
    && (forall k :: 0 <= k < |stringData| ==> frame[h + k] == stringData[k])
    && (forall k :: h + |stringData| <= k < size ==> frame[k] == 0)
  }

  /**
   * Builds the frame for one packet, `frameSize` being the connected
   * controller's `networkFrameSize` (`None` when none is connected).
   */
  function Encode(frameSize: Option<int>, eventId: uint32, packetType: uint8, targetPlayerId: int32, stringData: CsString)
    : (r: Result<Frame, EncodeError>)
    ensures frameSize.None? <==> r == Failure(NoController)
    ensures frameSize.Some? ==>
      (r == Failure(Exception) <==> frameSize.value < HeaderLength(packetType) || !IsByteString(stringData))
    ensures frameSize.Some? ==>
      (r == Failure(TooLong) <==>
        && HeaderLength(packetType) <= frameSize.value
        && IsByteString(stringData)
        && HeaderLength(packetType) + |stringData| > frameSize.value)
    ensures r.Success? ==> FrameLayout(r.value, frameSize.value, eventId, packetType, targetPlayerId, stringData)
  {
    if frameSize.None? then Failure(NoController)
    else
      var size := frameSize.value;
      var h := HeaderLength(packetType);
      if size < h then Failure(Exception)
      else match StringToBytes(stringData)
        case None => Failure(Exception)
        case Some(payload) =>
          if h + |payload| > size then Failure(TooLong)
          else
            var target := if Targeted(packetType) then Int32ToBytes(targetPlayerId) else [];
            var frame := Uint32ToBytes(eventId) + [packetType] + target + payload + Zeros(size - h - |payload|);
            assert frame[0..4] == Uint32ToBytes(eventId);
            assert Targeted(packetType) ==> frame[5..9] == target;
            assert frame[h..h + |payload|] == payload;
            Success(frame)
  }

  /**
   * Parses a frame; `None` where the source throws because the frame is too
   * short for its header. The flags byte is always read at index 4, where
   * `Encode` puts it.
   */
  function Decode(frame: Frame): (r: Option<Packet>)
    ensures r.Some? <==> |frame| >= 5 && |frame| >= HeaderLength(frame[4])
    ensures r.Some? ==> r.value.packetType == frame[4] && Uint32ToBytes(r.value.eventId) == frame[0..4]
    ensures r.Some? ==> (r.value.targetPlayerId.Some? <==> Targeted(frame[4]))
    ensures r.Some? && r.value.targetPlayerId.Some? ==> Int32ToBytes(r.value.targetPlayerId.value) == frame[5..9]
    ensures r.Some? ==> r.value.stringData == BytesToString(frame, HeaderLength(frame[4]))
  {
    if |frame| < 5 then None
    else
      var flags := frame[4];
      if Targeted(flags) && |frame| < 9 then None
      else
        var target := if Targeted(flags) then Some(BytesToInt32(frame, 5)) else None;
        Some(Packet(BytesToUint32(frame, 0), flags, target, BytesToString(frame, HeaderLength(flags))))
  }

  /**
   * Decoding an encoded frame gives back the packet: the target id only when
   * flag 0x02 was set, and the payload whenever its characters are 1..255.
   */
  lemma {:induction false} DecodeEncode(frameSize: Option<int>, eventId: uint32, packetType: uint8, targetPlayerId: int32, stringData: CsString)
    requires Encode(frameSize, eventId, packetType, targetPlayerId, stringData).Success?
    requires IsNulFreeByteString(stringData)
    ensures Decode(Encode(frameSize, eventId, packetType, targetPlayerId, stringData).value)
         == Some(Packet(eventId, packetType, if Targeted(packetType) then Some(targetPlayerId) else None, stringData))
  {
    var frame := Encode(frameSize, eventId, packetType, targetPlayerId, stringData).value;
    var h := HeaderLength(packetType);
    var payload := StringToBytes(stringData).value;
    var rest := frame[h + |payload|..];
    assert frame[h..] == payload + rest;
    assert rest == [] || rest[0] == 0;
    DecodeEncoded(stringData, rest);
    Word32RoundTrip(eventId, targetPlayerId);
  }

  /** With the default 37-byte frame, a targeted packet holds at most 28 payload characters: 34 are refused. */
  lemma TargetedPayloadTooLong(eventId: uint32, targetPlayerId: int32, stringData: CsString)
    requires |stringData| == 34 && IsByteString(stringData)
    ensures Encode(Some(37), eventId, PacketTargetedPlayer, targetPlayerId, stringData) == Failure(TooLong)
  {
  }

  // ------------------------------------------------------------------ state

  /** The replicated fields of one `NetworkedUNPlayer`. */
  datatype UNPlayer = UNPlayer(eventId: uint32, data: Option<Frame>, lastData: Option<Frame>)

  /** A fresh player: event id 0, nothing sent and nothing seen. */
  const Initial: UNPlayer := UNPlayer(0, None, None)

  /** A send call either returns its boolean or propagates an exception from `Encode`. */
  datatype SendOutcome = Returned(accepted: bool) | Raised

  datatype Sent = Sent(player: UNPlayer, outcome: SendOutcome)

  /**
   * `SendPacket`: only the owner may send. The owner always consumes an event
   * id (`eventId++` runs before `Encode`) and publishes the frame when it
   * could be built.
   */
  function SendPacket(p: UNPlayer, isOwner: bool, frameSize: Option<int>, packetType: uint8, targetPlayerId: int32, stringData: CsString)
    : (r: Sent)
    ensures !isOwner ==> r == Sent(p, Returned(false))
    ensures isOwner ==> r.player.eventId == (p.eventId + 1) % 0x1_0000_0000
    ensures r.player.lastData == p.lastData
    ensures r.outcome == Returned(true) <==> isOwner && Encode(frameSize, p.eventId, packetType, targetPlayerId, stringData).Success?
    ensures r.outcome == Raised <==> isOwner && Encode(frameSize, p.eventId, packetType, targetPlayerId, stringData) == Failure(Exception)
    ensures r.outcome == Returned(true) ==>
      r.player.data.Some? && FrameLayout(r.player.data.value, frameSize.value, p.eventId, packetType, targetPlayerId, stringData)
    ensures r.outcome != Returned(true) ==> r.player.data == p.data
  {
    if !isOwner then Sent(p, Returned(false))
    else
      var next := p.(eventId := (p.eventId + 1) % 0x1_0000_0000);
      match Encode(frameSize, p.eventId, packetType, targetPlayerId, stringData)
      case Success(frame) => Sent(next.(data := Some(frame)), Returned(true))
      case Failure(Exception) => Sent(next, Raised)
      case Failure(_) => Sent(next, Returned(false))
  }

  /** A frame published by one of the public send calls: the given flags byte and no target id. */
  predicate UntargetedFrame(r: Sent, packetType: uint8)
  {
    r.outcome == Returned(true) ==>
      && r.player.data.Some?
      && |r.player.data.value| >= 5
      && r.player.data.value[4] == packetType
      && Decode(r.player.data.value).Some?
      && Decode(r.player.data.value).value.targetPlayerId.None?
  }

  /** A send whose flags leave 0x02 clear publishes a frame without a target id. */
  lemma UntargetedSend(p: UNPlayer, isOwner: bool, frameSize: Option<int>, packetType: uint8, targetPlayerId: int32, stringData: CsString)
    requires !Targeted(packetType)
    ensures UntargetedFrame(SendPacket(p, isOwner, frameSize, packetType, targetPlayerId, stringData), packetType)
  {
    var r := SendPacket(p, isOwner, frameSize, packetType, targetPlayerId, stringData);
    if r.outcome == Returned(true) {
      var frame := r.player.data.value;
      assert |frame| >= HeaderLength(packetType) == 5;
      assert frame[4] == packetType;
    }
  }

  function SendRawDataToPlayer(p: UNPlayer, isOwner: bool, frameSize: Option<int>, targetPlayerId: int32, stringData: CsString)
    : (r: Sent)
    ensures isOwner ==> r.player.eventId == (p.eventId + 1) % 0x1_0000_0000
    ensures UntargetedFrame(r, 0)
    ensures !isOwner ==> r == Sent(p, Returned(false))
    ensures r.outcome == Returned(true) <==> isOwner && Encode(frameSize, p.eventId, 0, targetPlayerId, stringData).Success?
    ensures r.outcome == Raised <==> isOwner && Encode(frameSize, p.eventId, 0, targetPlayerId, stringData) == Failure(Exception)
    ensures r.outcome == Returned(true) ==>
      r.player.data.Some? && FrameLayout(r.player.data.value, frameSize.value, p.eventId, 0, targetPlayerId, stringData)
    ensures r.player.lastData == p.lastData
    ensures r.outcome != Returned(true) ==> r.player.data == p.data
  {
    UntargetedSend(p, isOwner, frameSize, 0, targetPlayerId, stringData);
    SendPacket(p, isOwner, frameSize, 0, targetPlayerId, stringData)
  }

  function SendRawDataToPlayerLossless(p: UNPlayer, isOwner: bool, frameSize: Option<int>, targetPlayerId: int32, stringData: CsString)
    : (r: Sent)
    ensures isOwner ==> r.player.eventId == (p.eventId + 1) % 0x1_0000_0000
    ensures UntargetedFrame(r, PacketLossless)
    ensures !isOwner ==> r == Sent(p, Returned(false))
    ensures r.outcome == Returned(true) <==> isOwner && Encode(frameSize, p.eventId, PacketLossless, targetPlayerId, stringData).Success?
    ensures r.outcome == Raised <==> isOwner && Encode(frameSize, p.eventId, PacketLossless, targetPlayerId, stringData) == Failure(Exception)
    ensures r.outcome == Returned(true) ==>
      r.player.data.Some? && FrameLayout(r.player.data.value, frameSize.value, p.eventId, PacketLossless, targetPlayerId, stringData)
    ensures r.player.lastData == p.lastData
    ensures r.outcome != Returned(true) ==> r.player.data == p.data
  {
    UntargetedSend(p, isOwner, frameSize, PacketLossless, targetPlayerId, stringData);
    SendPacket(p, isOwner, frameSize, PacketLossless, targetPlayerId, stringData)
  }

  function BroadcastRawData(p: UNPlayer, isOwner: bool, frameSize: Option<int>, stringData: CsString): (r: Sent)
    ensures isOwner ==> r.player.eventId == (p.eventId + 1) % 0x1_0000_0000
    ensures UntargetedFrame(r, 0)
    ensures !isOwner ==> r == Sent(p, Returned(false))
    ensures r.outcome == Returned(true) <==> isOwner && Encode(frameSize, p.eventId, 0, 0, stringData).Success?
    ensures r.outcome == Raised <==> isOwner && Encode(frameSize, p.eventId, 0, 0, stringData) == Failure(Exception)
    ensures r.outcome == Returned(true) ==>
      r.player.data.Some? && FrameLayout(r.player.data.value, frameSize.value, p.eventId, 0, 0, stringData)
    ensures r.player.lastData == p.lastData
    ensures r.outcome != Returned(true) ==> r.player.data == p.data
  {
    UntargetedSend(p, isOwner, frameSize, 0, 0, stringData);
    SendPacket(p, isOwner, frameSize, 0, 0, stringData)
  }

  function BroadcastRawDataLossless(p: UNPlayer, isOwner: bool, frameSize: Option<int>, stringData: CsString): (r: Sent)
    ensures isOwner ==> r.player.eventId == (p.eventId + 1) % 0x1_0000_0000
    ensures UntargetedFrame(r, PacketLossless)
    ensures !isOwner ==> r == Sent(p, Returned(false))
    ensures r.outcome == Returned(true) <==> isOwner && Encode(frameSize, p.eventId, PacketLossless, 0, stringData).Success?
    ensures r.outcome == Raised <==> isOwner && Encode(frameSize, p.eventId, PacketLossless, 0, stringData) == Failure(Exception)
    ensures r.outcome == Returned(true) ==>
      r.player.data.Some? && FrameLayout(r.player.data.value, frameSize.value, p.eventId, PacketLossless, 0, stringData)
    ensures r.player.lastData == p.lastData
    ensures r.outcome != Returned(true) ==> r.player.data == p.data
  {
    UntargetedSend(p, isOwner, frameSize, PacketLossless, 0, stringData);
    SendPacket(p, isOwner, frameSize, PacketLossless, 0, stringData)
  }

  /**
   * A targeted send and a broadcast of the same text publish the same frame:
   * the public calls never set flag 0x02, so the target id is dropped.
   */
  lemma TargetIsNeverSent(p: UNPlayer, isOwner: bool, frameSize: Option<int>, targetPlayerId: int32, stringData: CsString)
    ensures SendRawDataToPlayer(p, isOwner, frameSize, targetPlayerId, stringData)
         == BroadcastRawData(p, isOwner, frameSize, stringData)
    ensures SendRawDataToPlayerLossless(p, isOwner, frameSize, targetPlayerId, stringData)
         == BroadcastRawDataLossless(p, isOwner, frameSize, stringData)
  {
  }

  /** The first packet a fresh player sends carries event id 0; the player moves on to 1. */
  lemma FirstPacketHasEventIdZero(frameSize: int, stringData: CsString)
    requires SendPacket(Initial, true, Some(frameSize), 0, 0, stringData).outcome == Returned(true)
    ensures var r := SendPacket(Initial, true, Some(frameSize), 0, 0, stringData).player;
            && r.eventId == 1
            && Decode(r.data.value).Some? && Decode(r.data.value).value.eventId == 0
  {
  }

  // -------------------------------------------------------------- receiving

  /** What a deserialization event hands to the controller's `Handle`. */
  datatype Delivery =
    | Ignored                   // not a new remote value, or no controller connected
    | Dispatched(packet: Packet)
    | DecodeThrew               // `Decode(data)` throws on a frame too short for its header

  /** The state after a deserialization event, and what was handed on. */
  datatype Received = Received(player: UNPlayer, delivery: Delivery)

  /** The change-detection condition of `OnDeserialization`. */
  predicate IsNewRemoteValue(p: UNPlayer, isOwner: bool, timeSinceLevelLoad: real)
  {
    !isOwner && p.data != p.lastData && timeSinceLevelLoad > 10.0 && p.data.Some? && |p.data.value| > 0
  }

  /**
   * `OnDeserialization`: a non-owner that sees a non-empty value different
   * from the last one it saw records it and, when a controller is connected,
   * hands the decoded packet to `Handle` (whose body is commented out).
   * `lastData` is updated before `Decode` runs, so a frame `Decode` throws
   * on is still recorded as seen.
   */
  function OnDeserialization(p: UNPlayer, isOwner: bool, controllerConnected: bool, timeSinceLevelLoad: real): (r: Received)
    ensures r.player.eventId == p.eventId && r.player.data == p.data
    ensures IsNewRemoteValue(p, isOwner, timeSinceLevelLoad) ==> r.player.lastData == p.data
    ensures !IsNewRemoteValue(p, isOwner, timeSinceLevelLoad) ==> r == Received(p, Ignored)
    ensures r.delivery != Ignored <==> IsNewRemoteValue(p, isOwner, timeSinceLevelLoad) && controllerConnected
    ensures r.delivery.Dispatched? ==> p.data.Some? && Decode(p.data.value) == Some(r.delivery.packet)
    ensures r.delivery == DecodeThrew <==>
      IsNewRemoteValue(p, isOwner, timeSinceLevelLoad) && controllerConnected && Decode(p.data.value).None?
  {
    if IsNewRemoteValue(p, isOwner, timeSinceLevelLoad) then
      var seen := p.(lastData := p.data);
      if !controllerConnected then Received(seen, Ignored)
      else match Decode(p.data.value)
        case Some(packet) => Received(seen, Dispatched(packet))
        case None => Received(seen, DecodeThrew)
    else Received(p, Ignored)
  }

  /** Delivering the same value twice is handled at most once: the detector is edge-triggered. */
  lemma RedeliveryIsIgnored(p: UNPlayer, isOwner: bool, controllerConnected: bool, t1: real, t2: real)
    requires IsNewRemoteValue(p, isOwner, t1)
    ensures var once := OnDeserialization(p, isOwner, controllerConnected, t1).player;
            OnDeserialization(once, isOwner, controllerConnected, t2) == Received(once, Ignored)
  {
  }

  /**
   * A new value shorter than the five header bytes makes `Decode` throw, yet
   * it is recorded as seen, so it is never handed on, not even when it is
   * delivered again.
   */
  lemma ShortFrameIsSwallowed(p: UNPlayer, t1: real, t2: real)
    requires IsNewRemoteValue(p, false, t1) && |p.data.value| < 5
    ensures var r := OnDeserialization(p, false, true, t1);
            && r.delivery == DecodeThrew && r.player.lastData == p.data
            && OnDeserialization(r.player, false, true, t2).delivery == Ignored
  {
  }

  /**
   * End to end: a frame an owner publishes is picked up by a non-owner whose
   * last seen value differs, and the packet that was sent is handed on.
   */
  lemma {:induction false} SentFrameIsReceived(sender: UNPlayer, frameSize: int, stringData: CsString, lastSeen: Option<Frame>, t: real)
    requires IsNulFreeByteString(stringData)
    requires SendPacket(sender, true, Some(frameSize), 0, 0, stringData).outcome == Returned(true)
    requires t > 10.0
    requires lastSeen != SendPacket(sender, true, Some(frameSize), 0, 0, stringData).player.data
    ensures var sent := SendPacket(sender, true, Some(frameSize), 0, 0, stringData).player;
            var got := OnDeserialization(sent.(lastData := lastSeen), false, true, t);
            && got.player.lastData == sent.data
            && got.delivery == Dispatched(Packet(sender.eventId, 0, None, stringData))
  {
    var sent := SendPacket(sender, true, Some(frameSize), 0, 0, stringData).player;
    DecodeEncode(Some(frameSize), sender.eventId, 0, 0, stringData);
    assert |sent.data.value| == frameSize >= 5;
  }
}

=== FILE: numeric.dfy ===
/**
 * The C# fixed-width integer types as subsets of `int`, together with the
 * two conversions the byte codecs rely on: the truncating cast `(byte)x`
 * and the reinterpretation of an unsigned bit pattern as a two's-complement
 * signed value.
 *
 * A right shift `x >> k` of a C# integer is an arithmetic shift, i.e. floor
 * division by 2^k; Dafny's `/` on `int` with a positive divisor is floor
 * division, so `(byte)(x >> k)` is written `Low8(x / 2^k)` throughout.
 */
module Numeric {

  type uint8 = x: int | 0 <= x < 0x100
  type int8 = x: int | -0x80 <= x < 0x80
  type uint16 = x: int | 0 <= x < 0x1_0000
  type int16 = x: int | -0x8000 <= x < 0x8000
  type uint32 = x: int | 0 <= x < 0x1_0000_0000
  type int32 = x: int | -0x8000_0000 <= x < 0x8000_0000
  type uint64 = x: int | 0 <= x < 0x1_0000_0000_0000_0000
  type int64 = x: int | -0x8000_0000_0000_0000 <= x < 0x8000_0000_0000_0000

  /** A C# `char`: one UTF-16 code unit. */
  type CsChar = uint16

  /** A C# `string`: a sequence of UTF-16 code units. */
  type CsString = seq<CsChar>

  /** The C# cast `(byte)x`: keeps the low eight bits of the two's-complement pattern. */
  function Low8(x: int): uint8
  {
    x % 0x100
  }

  /** The C# cast `(sbyte)b`. */
  function Signed8(b: uint8): int8
  {
    if b < 0x80 then b else b - 0x100
  }

  /** The C# cast `(short)u` of a 16-bit pattern. */
  function Signed16(u: uint16): int16
  {
    if u < 0x8000 then u else u - 0x1_0000
  }

  /** The C# cast `(int)u` of a 32-bit pattern. */
  function Signed32(u: uint32): int32
  {
    if u < 0x8000_0000 then u else u - 0x1_0000_0000
  }

  /** The C# cast `(long)u` of a 64-bit pattern. */
  function Signed64(u: uint64): int64
  {
    if u < 0x8000_0000_0000_0000 then u else u - 0x1_0000_0000_0000_0000
  }

  /**
   * C# integer division, which truncates toward zero (Dafny's `/` is
   * Euclidean and differs for negative operands): the remainder
   * `a - q * b` has the sign of `a` and is smaller than `b` in magnitude.
   */
  function TruncDiv(a: int, b: int): (q: int)
    requires b != 0
    ensures 0 <= a ==> 0 <= a - q * b < (if b > 0 then b else -b)
    ensures a < 0 ==> 0 <= q * b - a < (if b > 0 then b else -b)
  {
    if a >= 0 && b > 0 then a / b
    else if a >= 0 then -(a / -b)
    else if b > 0 then -((-a) / b)
    else (-a) / (-b)
  }
}

=== FILE: wrappers.dfy ===
/** Failure-carrying datatypes used in place of C# `null` returns and thrown exceptions. */
module Wrappers {

  /** A value that may be absent; `None` stands for a C# `null` reference. */
  datatype Option<+T> = None | Some(value: T)

  /** The outcome of an operation that either produces a value or fails with a reason. */
  datatype Result<+T, +E> = Success(value: T) | Failure(error: E)
}
